=== FILE: README.md ===
# SimplestXMLSerializer: the Composite and CompositeList converters

This project is a Dafny model of the two converters at the heart of the
serializer's `load` package.

- **Composite** reads an annotated object from an element and writes it back.
  - Reading takes two phases. First each attribute of the node is matched against a consumed-once map of attribute labels. Then each element child is matched against a consumed-once map of element labels.
  - Each matched label is removed from its map. The value its converter reads is stored in the label's field.
  - A name with no remaining label is an AttributeException or ElementException. That covers both an unknown name and a second occurrence of a name.
  - After each phase, a required label still in the map is a FieldRequiredException.
  - Writing emits the attribute labels and then the element labels.
  - A required label whose field is null is an AttributeException or ElementException. An optional null is skipped.
  - An enum constant is written as its name.
  - An element whose value's runtime class differs from the declared type gets the factory's override marker.
- **CompositeList** handles element lists.
  - Reading turns every element child of the list node into one entry, read as a root value of the declared entry type and kept in document order.
  - Writing checks each item's class against the entry type, writes the item as a root element and appends it to the list node.

The model is functional.
- A document is an immutable tree: `Dom.Node` holds a name, ordered attributes and children, and a child is either an element or text.
- An object is its runtime class plus a map from field name to value (`Objects.Value`). A field that was never assigned reads as null.
- A class's metadata is a `Schema.Schema`: an optional root name, plus its attribute labels and element labels. Element lists are element labels whose converter is `CompositeList(entry)`.
- The two label maps are `map<string, Label>` values that the read threads through its phases (`Load.Progress`).
- Every exception becomes an `Errors.Error` inside a `Result`.
- The code outside the converters is passed in as functions of a `Collaborators.Context`:
  - the metadata source (`Source.getVisitor`);
  - `ObjectFactory` and `CollectionFactory`;
  - the traverser's root-name check;
  - the `Primitive` converter;
  - `toString`;
  - the override marker;
  - `Class.isAssignableFrom`.

The modules:

| module | contents |
|---|---|
| `Errors` (errors.dfy) | error datatype, `Result`, `Option` |
| `Dom` (dom.dfy) | nodes, attribute lookup and `setAttribute`, the element children of a child list |
| `Schema` (schema.dfy) | labels, schemas, the traversal map of a partition |
| `Objects` (objects.dfy) | values, `getClass`, `Field.get` |
| `Collaborators` (context.dfy) | the collaborator functions |
| `Load` (load.dfy) | both converters' read and write, which are mutually recursive |
| `ReadLemmas` (read_lemmas.dfy) | properties of Composite.read |
| `WriteLemmas` (write_lemmas.dfy) | properties of Composite.write |
| `ListLemmas` (list_lemmas.dfy) | properties of CompositeList.read and write |
| `RoundTrip` (roundtrip.dfy) | writing an object and reading it back with the same schema |
| `Scenarios` (scenarios.dfy) | the classes and documents of the repository's ExceptionTest, with the outcome each test expects |

The scenario lemmas are stated for any context whose collaborators behave like a simple example context (`Scenarios.Behaves`). `Scenarios.CtxBehaves` shows that such a context exists.

## Model

| member | source | states |
|---|---|---|
| Load.ReadAttributes | src/main/java/xml/serializer/load/Composite.java:219-227 | A successful attribute phase matched every attribute name against a remaining label. What remains is the input map minus exactly the attribute names: each match removes its own label and no other. |
| Load.ReadElements | src/main/java/xml/serializer/load/Composite.java:243-251 | A successful element phase matched every element child's name. What remains is the input map minus exactly those names. |
| Load.MissingRequired | src/main/java/xml/serializer/load/Composite.java:289-298 | The check reports a label exactly when some label of the partition is still in the map and is required. The label it names is one of those. |
| Load.ReadComposite | src/main/java/xml/serializer/load/Composite.java:103-107 | A successful read yields an object of the class the object factory instantiated for the node. What the read does to that object's fields is stated by ReadLemmas.CompositeFieldsKept and ReadLemmas.CompositeValuesAssigned. |
| Load.ReadValue | src/main/java/xml/serializer/load/Composite.java:268-274 | A field's converter runs on its element: on success a Composite label yields an object of the class the factory instantiated, and a CompositeList label yields a collection with one item per element child. |
| Load.ReadList | src/main/java/xml/serializer/load/CompositeList.java:105-117 | A successful list read yields a collection with exactly one item per element child of the list node. |
| Load.ReadEntries | src/main/java/xml/serializer/load/CompositeList.java:109-115 | The entry loop yields exactly one value per element child. |
| Load.ReadRoot | src/main/java/xml/serializer/load/CompositeList.java:113 | An entry is read only when the root check accepts its element, and then it is an object. |
| Load.WriteValue | src/main/java/xml/serializer/load/Composite.java:442 | The label's converter fills the element and keeps its name and existing children. A Primitive label never fails: it keeps the attributes and appends exactly the value's text. A CompositeList label on success keeps the attributes and appends one child per item of a collection. |
| Load.WriteAttribute | src/main/java/xml/serializer/load/Composite.java:406-417 | A null value sets nothing. An enum constant sets the attribute to its name, and any other value to its string form. The attribute takes the label's name, every other attribute is unchanged, and the node keeps its name and children. |
| Load.WriteAttributes | src/main/java/xml/serializer/load/Composite.java:351-363 | The phase succeeds exactly when no required label's field is null. Its only failure is an AttributeError for a null value, and success keeps the node's name and children. |
| Load.Shell | src/main/java/xml/serializer/load/Composite.java:435-441 | The new element takes the label's name and has no children. It carries one attribute, the factory's override marker, exactly when the runtime class differs from the declared type. |
| Load.WriteElements | src/main/java/xml/serializer/load/Composite.java:379-391 | Success keeps the node's name, attributes and existing children, and implies that no required label's field was null. |
| Load.WriteElement | src/main/java/xml/serializer/load/Composite.java:433-445 | A null value leaves the node as it was. A written non-null value appends exactly one child, an element named by the label, after the existing children. |
| Load.WriteComposite | src/main/java/xml/serializer/load/Composite.java:332-335 | A successful write keeps the node's name and existing children. |
| Load.WriteList | src/main/java/xml/serializer/load/CompositeList.java:130-142 | Only a collection can be written. Success keeps the list node's name and attributes, keeps its existing children, and appends exactly one child per item. |
| Load.WriteEntry | src/main/java/xml/serializer/load/CompositeList.java:134-139 | A null item fails. An item whose class is not assignable from the entry type fails with the entry-type error, and a written item passed that check. |
| Load.WriteEntries | src/main/java/xml/serializer/load/CompositeList.java:133-141 | The appended children are the root elements of the leading items, in item order. With no error every item is appended, and after an error fewer are. |
| Load.WriteRoot | src/main/java/xml/serializer/Root.java:38-47 | A written root element is named by the class's Root name. A class without one cannot be written as a root. |
| ReadLemmas.AttributesSucceedIff | src/main/java/xml/serializer/load/Composite.java:165-173 | The attribute loop succeeds if and only if three things hold: every attribute name has a label, no name occurs twice, and every attribute converts. |
| ReadLemmas.AttributeFieldsKept | src/main/java/xml/serializer/load/Composite.java:219-226 | A successful attribute phase leaves every field that no matched label fills with its earlier value. |
| ReadLemmas.AttributeValuesAssigned | src/main/java/xml/serializer/load/Composite.java:268-274 | After a successful attribute phase, each attribute's label field holds the value converted from that attribute. |
| ReadLemmas.FirstUnmatchedAttributeFails | src/main/java/xml/serializer/load/Composite.java:219-225 | The phase fails with an AttributeError on the first attribute whose name is undeclared or already consumed, whatever follows it. |
| ReadLemmas.TextChildrenIgnored | src/main/java/xml/serializer/load/Composite.java:196-201 | The element phase gives the same outcome on the children as on their element children alone. Text neither fails nor assigns. |
| ReadLemmas.ElementsSucceedIff | src/main/java/xml/serializer/load/Composite.java:192-203 | The element loop succeeds if and only if three things hold: every element child's name has a label, no name occurs twice, and every child's converter succeeds. |
| ReadLemmas.ElementFieldsKept | src/main/java/xml/serializer/load/Composite.java:243-250 | A successful element phase leaves every field that no matched label fills with its earlier value. |
| ReadLemmas.ElementValuesAssigned | src/main/java/xml/serializer/load/Composite.java:268-274 | After a successful element phase, each element child's label field holds the value its converter read from that child. |
| ReadLemmas.FirstUnmatchedElementFails | src/main/java/xml/serializer/load/Composite.java:243-249 | The phase fails with an ElementError on the first element child whose name is undeclared or a repeat. |
| ReadLemmas.CheckFailsIffRequiredLeft | src/main/java/xml/serializer/load/Composite.java:293-297 | The required-label check fails if and only if some label left in the map is required. Optional leftovers are accepted. |
| ReadLemmas.AttributeCheckIff | src/main/java/xml/serializer/load/Composite.java:165-173 | After the attribute loop, the check passes if and only if every required attribute label was named by some attribute. |
| ReadLemmas.RequiredLabelsMet | src/main/java/xml/serializer/load/Composite.java:143-146 | In a successful read, every required attribute label was met by an attribute and every required element label by an element child. |
| ReadLemmas.CompositeFieldsKept | src/main/java/xml/serializer/load/Composite.java:103-146 | Across a whole successful read, a field that no attribute or element label of the class is bound to keeps the value the factory's new object started with. An optional label the node omits leaves the field at that starting value. |
| ReadLemmas.CompositeValuesAssigned | src/main/java/xml/serializer/load/Composite.java:143-146 | Across a whole successful read, each attribute the factory left on the node sits in its label's field as converted, and each element child sits in its label's field as its converter read it. This holds when no field carries two annotations. |
| ReadLemmas.MissingRequiredAttributeFails | src/main/java/xml/serializer/load/Composite.java:172 | When instantiation and the attribute loop succeed but a required attribute label found no attribute, the read fails with a FieldRequiredError. It names the instantiated class and a required attribute label that is absent. |
| ReadLemmas.MissingRequiredElementFails | src/main/java/xml/serializer/load/Composite.java:192-203 | When instantiation, the attribute loop and its check, and the element loop all succeed but a required element label found no element child, the read fails with a FieldRequiredError. It names the instantiated class and a required element label no child matched. |
| ReadLemmas.AttributeErrorsComeFirst | src/main/java/xml/serializer/load/Composite.java:143-146 | When the attribute phase or its check fails, the read fails and its outcome does not depend on the children. |
| ReadLemmas.UndeclaredNodeFails | src/main/java/xml/serializer/load/Composite.java:219-251 | The read fails when an undeclared name appears either among the attributes the object factory leaves for the converter or among the element children. |
| WriteLemmas.FirstNullRequiredAttribute | src/main/java/xml/serializer/load/Composite.java:354-360 | The attribute phase fails with an AttributeError naming the first required label whose field is null. |
| WriteLemmas.AttributesWritten | src/main/java/xml/serializer/load/Composite.java:351-363 | After a successful attribute phase, each label's attribute holds its field's text, or is as before when the field is null. |
| WriteLemmas.AttributeLookupKept | src/main/java/xml/serializer/load/Composite.java:351-363 | The attribute phase leaves every attribute that no label names as it was. |
| WriteLemmas.FirstNullRequiredElement | src/main/java/xml/serializer/load/Composite.java:382-388 | The element phase fails with an ElementError naming the first required label whose field is null. |
| WriteLemmas.ElementsWritten | src/main/java/xml/serializer/load/Composite.java:379-391 | A successful element phase keeps the existing children. After them it appends exactly one element per non-null field, in label order; null fields add nothing. |
| WriteLemmas.OverrideMarker | src/main/java/xml/serializer/load/Composite.java:436-441 | A field's element takes the label's name. For a non-Composite field it carries exactly the override marker when the runtime class differs from the declared type, and no attribute otherwise. For a Composite field whose class differs, the marker stays unless that class declares an attribute of the same name. |
| WriteLemmas.AttributesBeforeElements | src/main/java/xml/serializer/load/Composite.java:332-335 | A null required attribute fails the write with its AttributeError whatever the elements hold, because attributes are written first. |
| WriteLemmas.CompositeWritten | src/main/java/xml/serializer/load/Composite.java:313-335 | A successful write keeps the node's name. It sets the attributes as AttributesWritten states and appends the elements as ElementsWritten states. |
| RoundTrip.AttributesWrittenInOrder | src/main/java/xml/serializer/load/Composite.java:351-363 | On an element carrying none of the label names, the attribute phase appends exactly one attribute per non-null field, in label order, holding the field's text. |
| RoundTrip.LeavesWrittenInOrder | src/main/java/xml/serializer/load/Composite.java:379-391 | For Primitive labels the element phase appends exactly one leaf element per non-null field, in label order, and nothing else. |
| RoundTrip.AttributesReadBack | src/main/java/xml/serializer/load/Composite.java:219-227 | Reading the attributes the writer emitted consumes exactly the labels of non-null fields and assigns each field its value back, given a transform that inverts the written text. |
| RoundTrip.LeavesReadBack | src/main/java/xml/serializer/load/Composite.java:243-251 | Reading the leaf elements the writer emitted consumes exactly the labels of non-null fields and assigns each field its value back, given a leaf transform that inverts what it wrote. |
| RoundTrip.NothingMissing | src/main/java/xml/serializer/load/Composite.java:289-298 | After reading back a written partition the required-label check passes, because every label left over has a null field and a written object has no null required field. |
| RoundTrip.CompositeShape | src/main/java/xml/serializer/load/Composite.java:332-335 | A written object is a fresh element holding exactly the written attributes followed by the written leaf elements. |
| RoundTrip.ShapeReadBack | src/main/java/xml/serializer/load/Composite.java:143-146 | For an `Invertible` object, meaning unique label names, only Primitive element labels, and transforms that read back what they wrote, and a factory that instantiates the object's own class: reading the written element back restores every labelled non-null field over the fields the factory's new object starts with, and nothing else. |
| RoundTrip.CompositeRoundTrip | src/main/java/xml/serializer/load/Composite.java:55-57 | For an `Invertible` object whose class has only Primitive element labels, and a factory that instantiates the object's own class: the written object reads back with the same schema as an object of the same class. Non-null labelled fields keep their values, and null ones hold what the factory's new object starts with (unassigned when it starts with none). |
| RoundTrip.ExactRoundTrip | src/main/java/xml/serializer/load/Composite.java:55-57 | For an `Invertible` object whose class has only Primitive element labels, whose fields are all labelled and non-null, and whose factory instantiates its own class setting none but those fields: the object reads back as exactly itself. |
| RoundTrip.RootRoundTrip | src/main/java/xml/serializer/load/Composite.java:55-57 | For an `Invertible` object whose class has only Primitive element labels, under the same factory assumption: the element Traverser writes under the class's root name reads back as CompositeRoundTrip states, once the root check accepts it. |
| ListLemmas.EntriesInOrder | src/main/java/xml/serializer/load/CompositeList.java:105-117 | The entry loop succeeds if and only if every element child reads as a root value of the entry type. It then holds those values in document order, one per element child, with text skipped. |
| ListLemmas.FirstFailingEntryFails | src/main/java/xml/serializer/load/CompositeList.java:109-115 | The list read fails with the error of its first element child that does not read. |
| ListLemmas.ListRead | src/main/java/xml/serializer/load/CompositeList.java:106-116 | A list read succeeds if and only if the collection factory and every entry succeed. The result is the factory's collection holding the entries in document order. |
| ListLemmas.ListWritten | src/main/java/xml/serializer/load/CompositeList.java:130-142 | A list write succeeds if and only if the value is a collection whose every item writes. Existing children stay, followed by each item's root element in iteration order. |
| ListLemmas.FirstFailingItemStops | src/main/java/xml/serializer/load/CompositeList.java:133-140 | The first failing item ends the write with its error. The items before it are already appended, in order, and nothing from it onwards is. |
| Scenarios.ValidReads | src/test/java/load/ExceptionTest.java:219-225 | The VALID document reads as an EntryList with its name, its text and a Vector of the three entries in document order. |
| Scenarios.NoAttributesFails | src/main/java/xml/serializer/load/Composite.java:172 | An EntryList root without attributes fails with a FieldRequiredError for name, whatever its children. |
| Scenarios.NoNameAttributeFails | src/test/java/load/ExceptionTest.java:227-236 | NO_NAME_ATTRIBUTE fails with a FieldRequiredError for the name attribute. |
| Scenarios.NoTextElementFails | src/test/java/load/ExceptionTest.java:238-247 | NO_TEXT_ELEMENT fails with a FieldRequiredError. It is raised for name, since that document lacks the attribute too. |
| Scenarios.NoTextFails | src/main/java/xml/serializer/load/Composite.java:202 | A named EntryList root holding only a list fails with a FieldRequiredError for the text element. |
| Scenarios.NamedNoTextElementFails | src/test/java/load/ExceptionTest.java:55-69 | NO_TEXT_ELEMENT with its name attribute restored fails with a FieldRequiredError for text. |
| Scenarios.UndeclaredAttributeFails | src/main/java/xml/serializer/load/Composite.java:223-225 | A first attribute EntryList does not declare fails with an AttributeError for that name. |
| Scenarios.ExtraAttributeFails | src/test/java/load/ExceptionTest.java:249-258 | EXTRA_ATTRIBUTE fails with an AttributeError for the attribute error. |
| Scenarios.UndeclaredElementFails | src/main/java/xml/serializer/load/Composite.java:247-249 | A first element child EntryList does not declare fails with an ElementError for that name. |
| Scenarios.ExtraElementFails | src/test/java/load/ExceptionTest.java:260-269 | EXTRA_ELEMENT fails with an ElementError for the element error. |
| Scenarios.MissingElementFails | src/test/java/load/ExceptionTest.java:293-305 | An Entry with an id and no text fails to write with an ElementError for text. |
| Scenarios.MissingAttributeFails | src/test/java/load/ExceptionTest.java:307-319 | An EntryList with text and no name fails to write with an AttributeError for name. |
| Scenarios.EntryWrites | src/test/java/load/ExceptionTest.java:146-154 | A complete instance of the test's Entry class writes as an entry element with its id attribute and one text element. No test method performs this write; the lemma exercises the write on the test's class. |
| Scenarios.SubclassItemRejected | src/main/java/xml/serializer/load/CompositeList.java:136-138 | As written, a list of ListEntry rejects a RootListEntry item, though RootListEntry is a subclass of ListEntry. |
| Scenarios.EntryTypeItemPasses | src/main/java/xml/serializer/load/CompositeList.java:136-139 | A ListEntry item passes the entry check. ListEntry declares no root, so the root write then fails. |

## Left out

- Reflection is replaced by values. `Field.get` and `Field.set` become a map from field name to value, and `getClass` becomes the value's type name.
- The fields a new object holds before the read are what the object factory reports in `Instance.fields`: field initializers, constructor assignments and Java primitive defaults (0, false). The model does not compute them. The example context of the scenarios starts every object with no field set, so there an unassigned `int` field reads as null rather than 0.
- The collaborators are parameters because their code is not part of this model:
  - `ObjectFactory`, `CollectionFactory`, `Source.getVisitor` and the `Primitive` converter;
  - `toString`, and `Class.isAssignableFrom` (`Context.assignableFrom`).
  - The object factory is modelled as returning the instantiated class together with the attributes it leaves for the converter. How it resolves or strips the override marker is not modelled.
- Root-name matching of list entries is the `checkRoot` parameter. It is the traverser's check, outside these converters. The RootException tests testMissingRoot and testListEntryWithNoRoot therefore have no scenario.
- The `Root` annotation is only the optional root name of a schema.
- Label resolution is out of scope. That covers annotation scanning, inherited and overridden fields, and duplicate-name detection. A schema is given as two ordered label sequences.
- The iteration order of LabelMap is not part of this model. The required-label check reports the first remaining required label in the schema's label order, and the write loops follow that order.
- The attribute order of a DOM NamedNodeMap is taken as given by the node.
- DOM node creation, text escaping, `Persister`, and reader and writer I/O are out of scope.
- Exception message formatting is not modelled: `PersistenceException` and `String.format` become constructors of `Errors.Error`.
- Two Java runtime exceptions appear only as plain error values:
  - the NullPointerException of a null list item becomes `NullEntry`;
  - the ClassCastException of writing a non-collection through the list converter becomes `NotCollection`.
- Some read-side assumptions:
  - The read side has two partitions, attributes and elements. An element list is an element label with a list converter, as in the code.
  - The list read does not depend on the list node's own name. `collType`, the declared collection type, is handed only to the collection factory.
- The list writer's entry check is modelled as the code writes it: `itemClass.isAssignableFrom(entry)`. An item therefore passes only when its class is the declared entry type or a supertype of it. A natural reading of the list contract ("each item must be an instance of the entry type") is the reverse. The model keeps the code's direction, and `Scenarios.SubclassItemRejected` shows the consequence.
- WriteLemmas.AttributesWritten: requires the attribute labels to have distinct names. Two labels sharing a name would make the later one overwrite the earlier; the resolver rules that out.
- WriteLemmas.CompositeWritten: requires distinct attribute label names, for the same reason as AttributesWritten.
- WriteLemmas.OverrideMarker: for a Composite field it states only that the marker survives. It does not give the element's full attribute list, which also holds the nested object's own attributes.
- ReadLemmas.AttributeValuesAssigned: requires that no two labels of a partition fill the same field, since each field carries one annotation. Without that, a later match would overwrite an earlier one.
- ReadLemmas.ElementValuesAssigned: requires distinct fields, for the same reason as AttributeValuesAssigned.
- ReadLemmas.CompositeValuesAssigned: requires distinct fields within each partition, and no field shared between the attribute and element partitions. Both follow from each field carrying one annotation.
- RoundTrip.CompositeRoundTrip: the round trip is proved only for a class whose element labels are all Primitive. Composite and CompositeList fields, and with them the list round trip, are not covered. Each nested class would need its own factory and transform assumptions, and the proof would need induction over the value.
- RoundTrip.CompositeRoundTrip: the round trip rests on three assumptions about code outside this model. Labels are unique within each partition. The object factory instantiates the written element as the object's own class and leaves all its attributes to the converter. The attribute and leaf transforms read back each value they wrote.
- RoundTrip.ShapeReadBack: holds only under the same Primitive-only and collaborator assumptions as CompositeRoundTrip (`Invertible`, and a factory that instantiates the object's own class).
- RoundTrip.ExactRoundTrip: holds only under the same Primitive-only and collaborator assumptions as CompositeRoundTrip. It also needs the factory's new object to set no field the written object leaves out.
- RoundTrip.RootRoundTrip: holds only under the same Primitive-only and collaborator assumptions as CompositeRoundTrip, plus a root check that accepts the written element.
- Collections are modelled as sequences: `Collection.add` appends and keeps document order. A collection factory that returns a Set, merging equal entries or reordering them, is not modelled.
- Load.WriteRoot: encodes what the traverser does, since that code is outside this model. The element is named by the class's Root name and filled by Composite.write with no override marker. A missing Root name (`RootError`) is the only failure of its own.
- Load.WriteValue: for a Primitive label it encodes `Primitive.write`, whose code is outside this model. That write appends exactly one text child, the collaborator's `leafText` of the value, and never fails.
- Values are finite trees. An object graph with a cycle or a shared reference is not modelled: writing a cycle makes the Java converters recurse until StackOverflowError.

=== FILE: context.dfy ===
/**
 * The collaborators the converters call but which are not part of this model,
 * passed in as functions: the metadata source, the object and collection
 * factories, the root-name check of the traverser, the primitive converter,
 * toString, the override marker the factory sets, and the class hierarchy.
 */
module Collaborators {
  import opened Errors
  import opened Dom
  import opened Schema
  import opened Objects

  /** What ObjectFactory.getInstance yields: the class it instantiated (the
      declared type or the one an override marker names), the attributes it
      leaves on the node for the converter to read, and the fields the new
      object already holds (initializers, constructor assignments, primitive
      defaults), which a read overwrites label by label. */
  datatype Instance = Instance(typeName: TypeName, attrs: seq<Attr>, fields: map<string, Value>)

  datatype Context = Context(
    /** Source.getVisitor: the labels of a class. */
    schemaOf: TypeName -> Schema,
    /** ObjectFactory.getInstance(node) for a declared type. */
    instantiate: (Node, TypeName) -> Result<Instance>,
    /** CollectionFactory.getInstance(node) for a declared collection type. */
    newCollection: (Node, TypeName) -> Result<TypeName>,
    /** The traverser's check that a list entry's element may be read as the
        entry type (root-name matching); Some(error) rejects it. */
    checkRoot: (Node, TypeName) -> Option<Error>,
    /** Primitive.read on an element child, for a declared type. */
    readLeaf: (Node, TypeName) -> Result<Value>,
    /** Primitive.read on an attribute, for a declared type. */
    readAttribute: (Attr, TypeName) -> Result<Value>,
    /** The text Primitive.write puts inside an element. */
    leafText: Value -> string,
    /** Object.toString. */
    toText: Value -> string,
    /** The attribute ObjectFactory.setOverride puts on an element to record
        a runtime class. */
    overrideMarker: TypeName -> Attr,
    /** Class.isAssignableFrom: assignableFrom(a, b) holds when b is a or a
        subclass of a. */
    assignableFrom: (TypeName, TypeName) -> bool)
}

=== FILE: dom.dfy ===
/**
 * The document tree the converters read from and write to: an element has a
 * name, ordered attributes and ordered children, a child is an element or text.
 * Only the operations the converters use are modelled: attribute lookup and
 * set, child append, and the element-kind filter.
 */
module Dom {
  import opened Errors

  datatype Attr = Attr(name: string, value: string)

  datatype Node = Node(name: string, attrs: seq<Attr>, children: seq<Child>)

  datatype Child = Elem(node: Node) | Text(text: string)

  /** A freshly created element with neither attributes nor children. */
  function NewElement(name: string): Node {
    Node(name, [], [])
  }

  /** The value of the first attribute called `name`, if any. */
  function Lookup(attrs: seq<Attr>, name: string): Option<string> {
    if |attrs| == 0 then None
    else if attrs[0].name == name then Some(attrs[0].value)
    else Lookup(attrs[1..], name)
  }

  /** The names of a sequence of attributes. */
  function AttrNames(attrs: seq<Attr>): set<string> {
    set a | a in attrs :: a.name
  }

  lemma LookupFindsNames(attrs: seq<Attr>, name: string)
    ensures Lookup(attrs, name).Some? <==> name in AttrNames(attrs)
  {
    if |attrs| > 0 {
      LookupFindsNames(attrs[1..], name);
      assert attrs == [attrs[0]] + attrs[1..];
    }
  }

  /** Element.setAttribute: replace the value of an existing attribute in
      place, or append a new one. */
  function Upsert(attrs: seq<Attr>, a: Attr): (r: seq<Attr>)
    ensures Lookup(r, a.name) == Some(a.value)
    ensures forall k :: k != a.name ==> Lookup(r, k) == Lookup(attrs, k)
    ensures |r| == if Lookup(attrs, a.name).None? then |attrs| + 1 else |attrs|
  {
    if |attrs| == 0 then [a]
    else if attrs[0].name == a.name then [a] + attrs[1..]
    else [attrs[0]] + Upsert(attrs[1..], a)
  }

  function SetAttribute(n: Node, name: string, text: string): (r: Node)
    ensures r.name == n.name && r.children == n.children
    ensures Lookup(r.attrs, name) == Some(text)
    ensures forall k :: k != name ==> Lookup(r.attrs, k) == Lookup(n.attrs, k)
  {
    n.(attrs := Upsert(n.attrs, Attr(name, text)))
  }

  /** Node.appendChild. */
  function AppendChild(n: Node, c: Node): Node {
    n.(children := n.children + [Elem(c)])
  }

  /** The element-kind children, in document order; text is dropped. */
  function Elements(cs: seq<Child>): (r: seq<Node>)
    ensures |r| <= |cs|
  {
    if |cs| == 0 then []
    else
      assert cs == [cs[0]] + cs[1..];
      match cs[0]
      case Elem(n) => [n] + Elements(cs[1..])
      case Text(_) => Elements(cs[1..])
  }

  lemma ElementsOfElem(c: Node, rest: seq<Child>)
    ensures Elements([Elem(c)] + rest) == [c] + Elements(rest)
  {
    assert ([Elem(c)] + rest)[1..] == rest;
  }

  /** The names of a sequence of elements, in order. */
  function Names(ns: seq<Node>): (r: seq<string>)
    ensures |r| == |ns|
    ensures forall i :: 0 <= i < |ns| ==> r[i] == ns[i].name
  {
    if |ns| == 0 then [] else [ns[0].name] + Names(ns[1..])
  }

  /** Number of nodes in a tree, counting text as one; the converters recurse on it. */
  function Size(n: Node): (r: nat)
    ensures r >= 1
  {
    1 + KidsSize(n.children)
  }

  function KidsSize(cs: seq<Child>): nat {
    if |cs| == 0 then 0 else ChildSize(cs[0]) + KidsSize(cs[1..])
  }

  function ChildSize(c: Child): (r: nat)
    ensures r >= 1
  {
    match c
    case Elem(n) => Size(n)
    case Text(_) => 1
  }
}

=== FILE: errors.dfy ===
/**
 * The closed error taxonomy of the load package, and the failure-compatible
 * wrappers the converters return instead of throwing.
 */
module Errors {

  /** A fully-qualified class name; runtime and declared types are compared by it. */
  type TypeName = string

  /** Why an attribute or element error was raised: on read the name has no
      (remaining) label, on write a required field holds null. */
  datatype Reason = DoesNotExist | NullValue

  datatype Error =
    /** AttributeException: unknown or repeated attribute (read), required null (write). */
    | AttributeError(name: string, reason: Reason)
    /** ElementException: unknown or repeated element (read), required null (write). */
    | ElementError(name: string, reason: Reason)
    /** FieldRequiredException: a required label was left unmatched after a phase. */
    | FieldRequiredError(labelName: string, owner: TypeName)
    /** The plain RuntimeException of the list writer's entry-type check. */
    | EntryTypeMismatch
    /** The NullPointerException of asking a null list item for its class. */
    | NullEntry
    /** The ClassCastException of writing a non-collection with the list converter. */
    | NotCollection
    /** RootException: a type written as a root value declares no root name, or a
        collaborator rejected a node's root name. */
    | RootError(subject: TypeName)
    /** Failures reported by collaborators outside this model (factories, the
        primitive converter), carried through unchanged. */
    | InstantiationError(subject: TypeName)
    | ConversionError(text: string)

  datatype Option<+T> = None | Some(value: T)

  /** The outcome of a read or write: a value, or the error that aborted the call. */
  datatype Result<+T> = Success(value: T) | Failure(error: Error) {

    predicate IsFailure() {
      Failure?
    }

    function PropagateFailure<U>(): Result<U>
      requires Failure?
    {
      Failure(error)
    }

    function Extract(): T
      requires Success?
    {
      value
    }
  }
}

=== FILE: list_lemmas.dfy ===
/**
 * Properties of CompositeList: one entry per element child, in document
 * order, each read as a root value of the entry type; on write, one appended
 * element per item, in order, with the first failing item ending the write.
 */
module ListLemmas {
  import opened Errors
  import opened Dom
  import opened Schema
  import opened Objects
  import opened Collaborators
  import opened Load

  // ---------------------------------------------------------------------------
  // CompositeList.read
  // ---------------------------------------------------------------------------

  /** `items` holds, in order, the values `read` gives the nodes of `es`. */
  predicate Pointwise(read: Node -> Result<Value>, es: seq<Node>, items: seq<Value>) {
    && |items| == |es|
    && forall i :: 0 <= i < |es| ==> read(es[i]) == Success(items[i])
  }

  lemma PointwiseCons(read: Node -> Result<Value>, c: Node, es: seq<Node>, v: Value, items: seq<Value>)
    requires read(c) == Success(v)
    ensures Pointwise(read, [c] + es, [v] + items) <==> Pointwise(read, es, items)
  {
    if Pointwise(read, es, items) {
      forall i | 1 <= i < |es| + 1
        ensures read(([c] + es)[i]) == Success(([v] + items)[i])
      {
        assert ([c] + es)[i] == es[i - 1];
      }
    }
    if Pointwise(read, [c] + es, [v] + items) {
      forall i | 0 <= i < |es|
        ensures read(es[i]) == Success(items[i])
      {
        assert ([c] + es)[i + 1] == es[i];
      }
    }
  }

  /** Every element reads as a root value of the entry type, and `items` holds
      those values in the same order. */
  predicate EntriesRead(ctx: Context, es: seq<Node>, entry: TypeName, items: seq<Value>) {
    Pointwise(n => ReadRoot(ctx, n, entry), es, items)
  }

  /** The entry loop succeeds exactly when every element child reads as a root
      value of the entry type, and then yields those values in document order,
      one per element child, text passed over and nothing merged or sorted. */
  lemma {:induction false} EntriesInOrder(ctx: Context, kids: seq<Child>, entry: TypeName)
    ensures ReadEntries(ctx, kids, entry).Success? <==>
              forall i :: 0 <= i < |Elements(kids)| ==> ReadRoot(ctx, Elements(kids)[i], entry).Success?
    ensures ReadEntries(ctx, kids, entry).Success? ==>
              EntriesRead(ctx, Elements(kids), entry, ReadEntries(ctx, kids, entry).value)
    decreases |kids|
  {
    if |kids| > 0 {
      var rest := kids[1..];
      EntriesInOrder(ctx, rest, entry);
      match kids[0]
      case Text(_) =>
        assert Elements(kids) == Elements(rest);
      case Elem(c) =>
        assert kids == [Elem(c)] + rest;
        ElementsOfElem(c, rest);
        EntryStep(ctx, c, rest, entry);
        var es := Elements(rest);
        assert forall i :: 0 <= i < |es| ==> Elements(kids)[i + 1] == es[i];
        if ReadRoot(ctx, c, entry).Failure? {
          assert Elements(kids)[0] == c;
        } else if ReadEntries(ctx, rest, entry).Success? {
          PointwiseCons(n => ReadRoot(ctx, n, entry), c, es, ReadRoot(ctx, c, entry).value,
                        ReadEntries(ctx, rest, entry).value);
        }
    }
  }

  /** Position k is the first node of `es` that does not read as an entry. */
  predicate FirstFailing(ctx: Context, entry: TypeName, es: seq<Node>, k: int) {
    && 0 <= k < |es|
    && ReadRoot(ctx, es[k], entry).Failure?
    && forall i :: 0 <= i < k ==> ReadRoot(ctx, es[i], entry).Success?
  }

  lemma FirstFailingTail(ctx: Context, entry: TypeName, c: Node, es: seq<Node>, k: int)
    requires k > 0 && FirstFailing(ctx, entry, [c] + es, k)
    ensures ReadRoot(ctx, c, entry).Success? && FirstFailing(ctx, entry, es, k - 1) && es[k - 1] == ([c] + es)[k]
  {
    assert ([c] + es)[0] == c;
    forall i | 0 <= i < k - 1
      ensures ReadRoot(ctx, es[i], entry).Success?
    {
      assert ([c] + es)[i + 1] == es[i];
    }
  }

  /** An entry that reads leaves the outcome to the entries after it. */
  lemma EntryStep(ctx: Context, c: Node, rest: seq<Child>, entry: TypeName)
    ensures ReadRoot(ctx, c, entry).Failure? ==>
              ReadEntries(ctx, [Elem(c)] + rest, entry) == Failure(ReadRoot(ctx, c, entry).error)
    ensures ReadRoot(ctx, c, entry).Success? && ReadEntries(ctx, rest, entry).Failure? ==>
              ReadEntries(ctx, [Elem(c)] + rest, entry) == Failure(ReadEntries(ctx, rest, entry).error)
    ensures ReadRoot(ctx, c, entry).Success? && ReadEntries(ctx, rest, entry).Success? ==>
              ReadEntries(ctx, [Elem(c)] + rest, entry)
                == Success([ReadRoot(ctx, c, entry).value] + ReadEntries(ctx, rest, entry).value)
  {
    assert ([Elem(c)] + rest)[1..] == rest;
  }

  /** A list read fails with the error of its first failing entry. */
  lemma {:induction false} FirstFailingEntryFails(ctx: Context, kids: seq<Child>, entry: TypeName, k: int)
    requires FirstFailing(ctx, entry, Elements(kids), k)
    ensures ReadEntries(ctx, kids, entry) == Failure(ReadRoot(ctx, Elements(kids)[k], entry).error)
    decreases |kids|
  {
    var rest := kids[1..];
    match kids[0]
    case Text(_) =>
      assert Elements(kids) == Elements(rest);
      FirstFailingEntryFails(ctx, rest, entry, k);
    case Elem(c) =>
      assert kids == [Elem(c)] + rest;
      ElementsOfElem(c, rest);
      EntryStep(ctx, c, rest, entry);
      if k > 0 {
        FirstFailingTail(ctx, entry, c, Elements(rest), k);
        FirstFailingEntryFails(ctx, rest, entry, k - 1);
      }
  }

  /** CompositeList.read: the collection the factory makes, filled with every
      element child read as a root value of the entry type; the list node's
      own name plays no part beyond the factory. */
  lemma ListRead(ctx: Context, node: Node, collType: TypeName, entry: TypeName)
    ensures ReadList(ctx, node, collType, entry).Success? <==>
              && ctx.newCollection(node, collType).Success?
              && forall i :: 0 <= i < |Elements(node.children)| ==>
                   ReadRoot(ctx, Elements(node.children)[i], entry).Success?
    ensures ReadList(ctx, node, collType, entry).Success? ==>
              var r := ReadList(ctx, node, collType, entry).value;
              && r == Coll(ctx.newCollection(node, collType).value, r.items)
              && EntriesRead(ctx, Elements(node.children), entry, r.items)
  {
    EntriesInOrder(ctx, node.children, entry);
  }

  // ---------------------------------------------------------------------------
  // CompositeList.write
  // ---------------------------------------------------------------------------

  /** Every item passes the entry check and writes as a root element, and
      `appended` holds those elements in item order. */
  predicate EntriesWritten(ctx: Context, items: seq<Value>, entry: TypeName, appended: seq<Child>) {
    && |appended| == |items|
    && forall j :: 0 <= j < |items| ==>
         WriteEntry(ctx, items[j], entry).Success? && appended[j] == Elem(WriteEntry(ctx, items[j], entry).value)
  }

  /** CompositeList.write succeeds exactly when the value is a collection and
      every item writes, and then appends one root element per item, in
      iteration order, after the node's existing children. */
  lemma ListWritten(ctx: Context, source: Value, node: Node, entry: TypeName)
    ensures WriteList(ctx, source, node, entry).Success? <==>
              source.Coll? && forall j :: 0 <= j < |source.items| ==> WriteEntry(ctx, source.items[j], entry).Success?
    ensures WriteList(ctx, source, node, entry).Success? ==>
              var out := WriteList(ctx, source, node, entry).value;
              && out.name == node.name && out.attrs == node.attrs
              && out.children[..|node.children|] == node.children
              && EntriesWritten(ctx, source.items, entry, out.children[|node.children|..])
  {
    if source.Coll? {
      var p := WriteEntries(ctx, source.items, entry, node);
      if p.error.Some? {
        var k := |p.node.children| - |node.children|;
        assert !WriteEntry(ctx, source.items[k], entry).Success?;
      }
    }
  }

  /** Position k is the first item the list writer cannot write. */
  predicate FirstFailingItem(ctx: Context, items: seq<Value>, entry: TypeName, k: int) {
    && 0 <= k < |items|
    && WriteEntry(ctx, items[k], entry).Failure?
    && forall j :: 0 <= j < k ==> WriteEntry(ctx, items[j], entry).Success?
  }

  /** The first failing item ends the write with its error: the items before
      it are already appended, in order, and nothing from it or after it. */
  lemma FirstFailingItemStops(ctx: Context, items: seq<Value>, entry: TypeName, node: Node, k: int)
    requires FirstFailingItem(ctx, items, entry, k)
    ensures var p := WriteEntries(ctx, items, entry, node);
            && p.error == Some(WriteEntry(ctx, items[k], entry).error)
            && p.node.children[..|node.children|] == node.children
            && EntriesWritten(ctx, items[..k], entry, p.node.children[|node.children|..])
  {
    var p := WriteEntries(ctx, items, entry, node);
    var n := |p.node.children| - |node.children|;
    assert n == k;
    var appended := p.node.children[|node.children|..];
    forall j | 0 <= j < k
      ensures WriteEntry(ctx, items[..k][j], entry).Success?
      ensures appended[j] == Elem(WriteEntry(ctx, items[..k][j], entry).value)
    {
      assert items[..k][j] == items[j];
    }
  }
}

=== FILE: load.dfy ===
/**
 * The Composite and CompositeList converters of the load package. They are
 * mutually recursive (a composite field or list entry is read and written by
 * the same engine), so both live in this one module.
 *
 * Reading recurses on the document node (measure: Dom.Size); writing recurses
 * on the value being written (a field value or list item is part of its owner).
 */
module Load {
  import opened Errors
  import opened Dom
  import opened Schema
  import opened Objects
  import opened Collaborators

  /** The state a read phase threads through the nodes it visits: the labels
      not yet matched, and the fields assigned so far. */
  datatype Progress = Progress(remaining: LabelMap, fields: map<string, Value>)

  // ---------------------------------------------------------------------------
  // Composite.read
  // ---------------------------------------------------------------------------

  /** readAttributes/readAttribute: each attribute, in order, consumes the label
      of its name and assigns the converted text to that label's field; a name
      without a remaining label is an AttributeError. */
  function ReadAttributes(ctx: Context, attrs: seq<Attr>, remaining: LabelMap, fields: map<string, Value>)
    : (r: Result<Progress>)
    ensures r.Success? ==> AttrNames(attrs) <= remaining.Keys
    ensures r.Success? ==> r.value.remaining == remaining - AttrNames(attrs)
    decreases |attrs|
  {
    if |attrs| == 0 then Success(Progress(remaining, fields))
    else
      var name := attrs[0].name;
      if name !in remaining then Failure(AttributeError(name, DoesNotExist))
      else
        var lab := remaining[name];
        var v :- ctx.readAttribute(attrs[0], lab.declType);
        var r := ReadAttributes(ctx, attrs[1..], remaining - {name}, fields[lab.field := v]);
        assert attrs == [attrs[0]] + attrs[1..];
        assert AttrNames(attrs) == {name} + AttrNames(attrs[1..]);
        r
  }

  /** readElements/readElement: each element child, in document order,
      consumes the label of its name and assigns the value its converter reads
      to that label's field; text children are passed over; a name without a
      remaining label is an ElementError. */
  function ReadElements(ctx: Context, kids: seq<Child>, remaining: LabelMap, fields: map<string, Value>)
    : (r: Result<Progress>)
    ensures r.Success? ==> ElementNames(kids) <= remaining.Keys
    ensures r.Success? ==> r.value.remaining == remaining - ElementNames(kids)
    decreases KidsSize(kids), 3
  {
    if |kids| == 0 then Success(Progress(remaining, fields))
    else
      assert kids == [kids[0]] + kids[1..];
      match kids[0]
      case Text(_) =>
        assert Elements(kids) == Elements(kids[1..]);
        ReadElements(ctx, kids[1..], remaining, fields)
      case Elem(c) =>
        if c.name !in remaining then Failure(ElementError(c.name, DoesNotExist))
        else
          var lab := remaining[c.name];
          assert ChildSize(kids[0]) == Size(c);
          var v :- ReadValue(ctx, c, lab);
          var r := ReadElements(ctx, kids[1..], remaining - {c.name}, fields[lab.field := v]);
          assert Elements(kids) == [c] + Elements(kids[1..]);
          assert ElementNames(kids) == {c.name} + ElementNames(kids[1..]);
          r
  }

  /** The names of the element-kind children. */
  function ElementNames(kids: seq<Child>): set<string> {
    set n | n in Elements(kids) :: n.name
  }

  /** Composite.read(node, source, label): run the label's converter on the node. */
  function ReadValue(ctx: Context, node: Node, lab: Label): (r: Result<Value>)
    ensures r.Success? && lab.converter.Composite? ==>
              && r.value.Obj? && ctx.instantiate(node, lab.declType).Success?
              && r.value.typeName == ctx.instantiate(node, lab.declType).value.typeName
    ensures r.Success? && lab.converter.CompositeList? ==>
              r.value.Coll? && |r.value.items| == |Elements(node.children)|
    decreases Size(node), 2
  {
    match lab.converter
    case Primitive => ctx.readLeaf(node, lab.declType)
    case Composite => ReadComposite(ctx, node, lab.declType)
    case CompositeList(entry) => ReadList(ctx, node, lab.declType, entry)
  }

  /** readCheck: the first label of `order` still remaining and required, if any. */
  function MissingRequired(order: seq<Label>, remaining: LabelMap): (r: Option<string>)
    ensures r.Some? <==> exists i :: 0 <= i < |order| && order[i].name in remaining
                                     && remaining[order[i].name].required
    ensures r.Some? ==> r.value in remaining && remaining[r.value].required
  {
    if |order| == 0 then None
    else if order[0].name in remaining && remaining[order[0].name].required then Some(order[0].name)
    else
      var r := MissingRequired(order[1..], remaining);
      assert forall i :: 1 <= i < |order| ==> order[i] == order[1..][i - 1];
      r
  }

  /** Composite.read(node): instantiate the (possibly overridden) class, read
      and check the attributes, then read and check the element children. */
  function ReadComposite(ctx: Context, node: Node, declType: TypeName): (r: Result<Value>)
    ensures r.Success? ==> r.value.Obj? && ctx.instantiate(node, declType).Success?
                           && r.value.typeName == ctx.instantiate(node, declType).value.typeName
    decreases Size(node), 1
  {
    var inst :- ctx.instantiate(node, declType);
    var schema := ctx.schemaOf(inst.typeName);
    var a :- ReadAttributes(ctx, inst.attrs, ToLabelMap(schema.attributes), inst.fields);
    var missingAttr := MissingRequired(schema.attributes, a.remaining);
    if missingAttr.Some? then Failure(FieldRequiredError(missingAttr.value, inst.typeName))
    else
      var e :- ReadElements(ctx, node.children, ToLabelMap(schema.elements), a.fields);
      var missingElem := MissingRequired(schema.elements, e.remaining);
      if missingElem.Some? then Failure(FieldRequiredError(missingElem.value, inst.typeName))
      else Success(Obj(inst.typeName, e.fields))
  }

  // ---------------------------------------------------------------------------
  // CompositeList.read
  // ---------------------------------------------------------------------------

  /** CompositeList.read: a collection of the (possibly overridden) collection
      class holding one root-read entry per element child. */
  function ReadList(ctx: Context, node: Node, collType: TypeName, entry: TypeName): (r: Result<Value>)
    ensures r.Success? ==> r.value.Coll? && |r.value.items| == |Elements(node.children)|
    decreases Size(node), 1
  {
    var coll :- ctx.newCollection(node, collType);
    var items :- ReadEntries(ctx, node.children, entry);
    Success(Coll(coll, items))
  }

  /** The loop of CompositeList.read: every element child, in document order,
      read as a root value of the entry type; text children are passed over. */
  function ReadEntries(ctx: Context, kids: seq<Child>, entry: TypeName): (r: Result<seq<Value>>)
    ensures r.Success? ==> |r.value| == |Elements(kids)|
    decreases KidsSize(kids), 3
  {
    if |kids| == 0 then Success([])
    else
      match kids[0]
      case Text(_) => ReadEntries(ctx, kids[1..], entry)
      case Elem(c) =>
        assert ChildSize(kids[0]) == Size(c);
        var v :- ReadRoot(ctx, c, entry);
        var rest :- ReadEntries(ctx, kids[1..], entry);
        Success([v] + rest)
  }

  /** Traverser.read(node, type): the root-name check, then a composite read. */
  function ReadRoot(ctx: Context, node: Node, rootType: TypeName): (r: Result<Value>)
    ensures r.Success? ==> ctx.checkRoot(node, rootType).None? && r.value.Obj?
    decreases Size(node), 2
  {
    match ctx.checkRoot(node, rootType)
    case Some(e) => Failure(e)
    case None => ReadComposite(ctx, node, rootType)
  }

  // ---------------------------------------------------------------------------
  // Composite.write
  // ---------------------------------------------------------------------------

  /** The text writeAttribute gives a non-null value: an enum constant's name,
      anything else's toString. */
  function AttributeText(ctx: Context, v: Value): string
    requires !v.Null?
  {
    if v.EnumConst? then v.constant else ctx.toText(v)
  }

  /** writeAttribute: set the label's attribute to the value's text; a null
      value sets nothing. */
  function WriteAttribute(ctx: Context, v: Value, node: Node, lab: Label): (r: Node)
    ensures r.name == node.name && r.children == node.children
    ensures v.Null? ==> r == node
    ensures v.EnumConst? ==> Lookup(r.attrs, lab.name) == Some(v.constant)
    ensures !v.Null? && !v.EnumConst? ==> Lookup(r.attrs, lab.name) == Some(ctx.toText(v))
    ensures forall k :: k != lab.name ==> Lookup(r.attrs, k) == Lookup(node.attrs, k)
  {
    if v.Null? then node else SetAttribute(node, lab.name, AttributeText(ctx, v))
  }

  /** writeAttributes: every attribute label in order; a required label whose
      field is null aborts with an AttributeError. */
  function WriteAttributes(ctx: Context, source: Value, labels: seq<Label>, node: Node): (r: Result<Node>)
    ensures r.Success? <==> forall i :: 0 <= i < |labels| && labels[i].required ==>
                                        !FieldOf(source, labels[i].field).Null?
    ensures r.Success? ==> r.value.name == node.name && r.value.children == node.children
    ensures r.Failure? ==> r.error.AttributeError? && r.error.reason == NullValue
  {
    if |labels| == 0 then Success(node)
    else
      var lab := labels[0];
      var v := FieldOf(source, lab.field);
      if lab.required && v.Null? then Failure(AttributeError(lab.name, NullValue))
      else
        var r := WriteAttributes(ctx, source, labels[1..], WriteAttribute(ctx, v, node, lab));
        assert forall i :: 1 <= i < |labels| ==> labels[i] == labels[1..][i - 1];
        r
  }

  /** The element writeElement creates for a non-null value: named by the
      label, and carrying the override marker when the value's class is not
      exactly the label's declared type. */
  function Shell(ctx: Context, v: Value, lab: Label): (r: Node)
    requires !v.Null?
    ensures r.name == lab.name && r.children == []
    ensures |r.attrs| == 1 <==> RuntimeType(v) != lab.declType
    ensures RuntimeType(v) == lab.declType ==> r.attrs == []
    ensures RuntimeType(v) != lab.declType ==> r.attrs == [ctx.overrideMarker(RuntimeType(v))]
  {
    var next := NewElement(lab.name);
    if RuntimeType(v) != lab.declType then
      var marker := ctx.overrideMarker(RuntimeType(v));
      SetAttribute(next, marker.name, marker.value)
    else next
  }

  /** writeElements: every element label in order; a required label whose
      field is null aborts with an ElementError. */
  function WriteElements(ctx: Context, source: Value, labels: seq<Label>, node: Node): (r: Result<Node>)
    ensures r.Success? ==> r.value.name == node.name && r.value.attrs == node.attrs
    ensures r.Success? ==> node.children <= r.value.children
    ensures r.Success? ==> forall i :: 0 <= i < |labels| && labels[i].required ==>
                                       !FieldOf(source, labels[i].field).Null?
    decreases source, 2, |labels|
  {
    if |labels| == 0 then Success(node)
    else
      var lab := labels[0];
      var v := FieldOf(source, lab.field);
      if lab.required && v.Null? then Failure(ElementError(lab.name, NullValue))
      else
        // WriteElement passes over a null value itself; the guard only shows
        // that the value handed down is part of `source`.
        var next :- if v.Null? then Success(node) else WriteElement(ctx, v, node, lab);
        var r := WriteElements(ctx, source, labels[1..], next);
        assert forall i :: 1 <= i < |labels| ==> labels[i] == labels[1..][i - 1];
        r
  }

  /** writeElement: nothing for null; otherwise the label's converter fills
      the element Shell creates, which is then appended. */
  function WriteElement(ctx: Context, v: Value, node: Node, lab: Label): (r: Result<Node>)
    ensures v.Null? ==> r == Success(node)
    ensures r.Success? ==> r.value.name == node.name && r.value.attrs == node.attrs
    ensures r.Success? && !v.Null? ==>
              |r.value.children| == |node.children| + 1
              && r.value.children[..|node.children|] == node.children
              && r.value.children[|node.children|].Elem?
              && r.value.children[|node.children|].node.name == lab.name
    decreases v, 5
  {
    if v.Null? then Success(node)
    else
      var child :- WriteValue(ctx, v, Shell(ctx, v, lab), lab);
      var r := AppendChild(node, child);
      assert r.children[..|node.children|] == node.children;
      Success(r)
  }

  /** Run the label's converter to fill an element with a non-null value. */
  function WriteValue(ctx: Context, v: Value, next: Node, lab: Label): (r: Result<Node>)
    requires !v.Null?
    ensures r.Success? ==> r.value.name == next.name && next.children <= r.value.children
    ensures lab.converter.Primitive? ==>
              && r.Success? && r.value.attrs == next.attrs
              && r.value.children == next.children + [Text(ctx.leafText(v))]
    ensures r.Success? && lab.converter.CompositeList? ==>
              && v.Coll? && r.value.attrs == next.attrs
              && |r.value.children| == |next.children| + |v.items|
    decreases v, 4
  {
    match lab.converter
    case Primitive => Success(next.(children := next.children + [Text(ctx.leafText(v))]))
    case Composite => WriteComposite(ctx, v, next)
    case CompositeList(entry) => WriteList(ctx, v, next, entry)
  }

  /** Composite.write: the attributes of the value's class, then its elements. */
  function WriteComposite(ctx: Context, source: Value, node: Node): (r: Result<Node>)
    requires !source.Null?
    ensures r.Success? ==> r.value.name == node.name && node.children <= r.value.children
    decreases source, 3
  {
    var schema := ctx.schemaOf(RuntimeType(source));
    var withAttrs :- WriteAttributes(ctx, source, schema.attributes, node);
    WriteElements(ctx, source, schema.elements, withAttrs)
  }

  // ---------------------------------------------------------------------------
  // CompositeList.write
  // ---------------------------------------------------------------------------

  /** The node as the list writer leaves it, and the error that stopped it. */
  datatype Partial = Partial(node: Node, error: Option<Error>)

  /** CompositeList.write: the value must be a collection; its items are
      appended in order until one fails. */
  function WriteList(ctx: Context, source: Value, node: Node, entry: TypeName): (r: Result<Node>)
    ensures r.Success? ==> source.Coll? && r.value.name == node.name && r.value.attrs == node.attrs
    ensures r.Success? ==> |r.value.children| == |node.children| + |source.items|
                           && r.value.children[..|node.children|] == node.children
    decreases source, 3
  {
    if !source.Coll? then Failure(NotCollection)
    else
      var p := WriteEntries(ctx, source.items, entry, node);
      if p.error.Some? then Failure(p.error.value) else Success(p.node)
  }

  /** One item of the list: its class must pass isAssignableFrom against the
      entry type, as written (the item's class is the receiver), and it is
      then written as a root value. */
  function WriteEntry(ctx: Context, item: Value, entry: TypeName): (r: Result<Node>)
    ensures r.Success? ==> !item.Null? && ctx.assignableFrom(RuntimeType(item), entry)
    ensures item.Null? ==> r == Failure(NullEntry)
    ensures !item.Null? && !ctx.assignableFrom(RuntimeType(item), entry) ==> r == Failure(EntryTypeMismatch)
    decreases item, 6
  {
    if item.Null? then Failure(NullEntry)
    else if !ctx.assignableFrom(RuntimeType(item), entry) then Failure(EntryTypeMismatch)
    else WriteRoot(ctx, item)
  }

  /** The loop of CompositeList.write. The nodes appended before a failing
      item stay appended; nothing after it is. */
  function WriteEntries(ctx: Context, items: seq<Value>, entry: TypeName, node: Node): (p: Partial)
    ensures p.node.name == node.name && p.node.attrs == node.attrs
    ensures node.children <= p.node.children
    ensures |node.children| <= |p.node.children| <= |node.children| + |items|
    ensures forall j :: 0 <= j < |p.node.children| - |node.children| ==>
              WriteEntry(ctx, items[j], entry).Success?
              && p.node.children[|node.children| + j] == Elem(WriteEntry(ctx, items[j], entry).value)
    ensures p.error.None? ==> |p.node.children| == |node.children| + |items|
    ensures p.error.Some? ==> |p.node.children| < |node.children| + |items|
                              && WriteEntry(ctx, items[|p.node.children| - |node.children|], entry)
                                 == Failure(p.error.value)
    decreases items, 0
  {
    if |items| == 0 then Partial(node, None)
    else
      match WriteEntry(ctx, items[0], entry)
      case Failure(e) => Partial(node, Some(e))
      case Success(child) =>
        var p := WriteEntries(ctx, items[1..], entry, AppendChild(node, child));
        assert forall j :: 1 <= j < |items| ==> items[j] == items[1..][j - 1];
        p
  }

  /** Traverser.write(item): an element named by the item class's Root
      declaration, filled as a composite; a class without one is a RootError. */
  function WriteRoot(ctx: Context, item: Value): (r: Result<Node>)
    requires !item.Null?
    ensures r.Success? ==> ctx.schemaOf(RuntimeType(item)).root.Some?
                           && r.value.name == ctx.schemaOf(RuntimeType(item)).root.value
    ensures ctx.schemaOf(RuntimeType(item)).root.None? ==> r == Failure(RootError(RuntimeType(item)))
    decreases item, 5
  {
    match ctx.schemaOf(RuntimeType(item)).root
    case None => Failure(RootError(RuntimeType(item)))
    case Some(name) => WriteComposite(ctx, item, NewElement(name))
  }
}

=== FILE: objects.dfy ===
/**
 * The values the converters move between documents and fields. An object is
 * its runtime class and a map from field name to value (reflection's
 * Field.get/Field.set); a field missing from the map has never been assigned
 * and reads as null. Scalars are opaque to this model.
 */
module Objects {
  import opened Errors

  datatype Value =
    | Null
    | Scalar(typeName: TypeName, datum: string)
    | EnumConst(typeName: TypeName, constant: string)
    | Obj(typeName: TypeName, fields: map<string, Value>)
    | Coll(typeName: TypeName, items: seq<Value>)

  /** getClass() of a non-null value. */
  function RuntimeType(v: Value): TypeName
    requires !v.Null?
  {
    v.typeName
  }

  /** Field.get: the value an object holds in a field, null when unassigned or
      when `v` is not an object. A non-null field value is part of `v`. */
  function FieldOf(v: Value, field: string): (r: Value)
    ensures !r.Null? ==> v.Obj? && field in v.fields && r < v
    ensures v.Obj? && field in v.fields ==> r == v.fields[field]
  {
    if v.Obj? && field in v.fields then v.fields[field] else Null
  }
}

=== FILE: read_lemmas.dfy ===
/**
 * Properties of Composite.read: closed-schema matching, consumed-once labels,
 * required-label enforcement and the order of the two phases.
 */
module ReadLemmas {
  import opened Errors
  import opened Dom
  import opened Schema
  import opened Objects
  import opened Collaborators
  import opened Load

  /** Every name has a label in `m`, and no name occurs twice: the only way a
      phase can consume one label per node. */
  predicate Matchable(names: seq<string>, m: LabelMap) {
    && (forall i :: 0 <= i < |names| ==> names[i] in m)
    && (forall i, j :: 0 <= i < j < |names| ==> names[i] != names[j])
  }

  function AttrNameSeq(attrs: seq<Attr>): (r: seq<string>)
    ensures |r| == |attrs| && forall i :: 0 <= i < |attrs| ==> r[i] == attrs[i].name
  {
    seq(|attrs|, i requires 0 <= i < |attrs| => attrs[i].name)
  }

  /** Position k is the first whose name cannot be matched: it has no label, or
      an earlier node already consumed its label. */
  predicate FirstUnmatched(names: seq<string>, m: LabelMap, k: int) {
    && 0 <= k < |names|
    && Matchable(names[..k], m)
    && (names[k] !in m || names[k] in names[..k])
  }

  // ---------------------------------------------------------------------------
  // attribute phase
  // ---------------------------------------------------------------------------

  /** Matching a first name consumes its label and leaves the rest to match
      against the smaller map. */
  lemma MatchableCons(n: string, names: seq<string>, m: LabelMap)
    ensures Matchable([n] + names, m) <==> n in m && Matchable(names, m - {n})
  {
    var all := [n] + names;
    assert forall i :: 0 <= i < |names| ==> all[i + 1] == names[i];
    if Matchable(all, m) {
      forall i | 0 <= i < |names| ensures names[i] in m - {n} {
        assert all[0] != all[i + 1];
      }
    }
    if n in m && Matchable(names, m - {n}) {
      forall i, j | 0 <= i < j < |all| ensures all[i] != all[j] {
        if i == 0 {
          assert all[j] == names[j - 1];
          assert names[j - 1] in m - {n};
        } else {
          assert all[i] == names[i - 1] && all[j] == names[j - 1];
        }
      }
    }
  }

  /** Every attribute has its own label and converts. */
  predicate AttributesReadable(ctx: Context, attrs: seq<Attr>, m: LabelMap) {
    && Matchable(AttrNameSeq(attrs), m)
    && forall i :: 0 <= i < |attrs| && attrs[i].name in m ==>
         ctx.readAttribute(attrs[i], m[attrs[i].name].declType).Success?
  }

  lemma AttributesReadableCons(ctx: Context, attrs: seq<Attr>, m: LabelMap)
    requires |attrs| > 0
    ensures var n := attrs[0].name;
            AttributesReadable(ctx, attrs, m) <==>
              && n in m && ctx.readAttribute(attrs[0], m[n].declType).Success?
              && AttributesReadable(ctx, attrs[1..], m - {n})
  {
    var n := attrs[0].name;
    assert AttrNameSeq(attrs) == [n] + AttrNameSeq(attrs[1..]);
    MatchableCons(n, AttrNameSeq(attrs[1..]), m);
    assert forall i :: 1 <= i < |attrs| ==> attrs[i] == attrs[1..][i - 1];
  }

  /** The attribute phase succeeds exactly when every attribute has its own
      label and every conversion succeeds. */
  lemma {:induction false} AttributesSucceedIff(ctx: Context, attrs: seq<Attr>, m: LabelMap, fields: map<string, Value>)
    ensures ReadAttributes(ctx, attrs, m, fields).Success? <==> AttributesReadable(ctx, attrs, m)
    decreases |attrs|
  {
    if |attrs| > 0 {
      var n := attrs[0].name;
      AttributesReadableCons(ctx, attrs, m);
      if n in m && ctx.readAttribute(attrs[0], m[n].declType).Success? {
        var v := ctx.readAttribute(attrs[0], m[n].declType).value;
        AttributesSucceedIff(ctx, attrs[1..], m - {n}, fields[m[n].field := v]);
      }
    }
  }

  /** The fields the labels under `names` fill. */
  function FieldsOf(names: set<string>, m: LabelMap): set<string> {
    set n | n in names && n in m :: m[n].field
  }

  /** No two labels of a traversal map fill the same field (each field carries
      one annotation). */
  predicate DistinctFields(m: LabelMap) {
    forall a, b :: a in m && b in m && a != b ==> m[a].field != m[b].field
  }

  /** A successful attribute phase touches only the fields of the labels it
      matched: every other field keeps its value. */
  lemma {:induction false} AttributeFieldsKept(ctx: Context, attrs: seq<Attr>, m: LabelMap, fields: map<string, Value>)
    requires ReadAttributes(ctx, attrs, m, fields).Success?
    ensures var out := ReadAttributes(ctx, attrs, m, fields).value.fields;
            forall f :: f in fields && f !in FieldsOf(AttrNames(attrs), m) ==> f in out && out[f] == fields[f]
    decreases |attrs|
  {
    if |attrs| > 0 {
      var n := attrs[0].name;
      var rest := attrs[1..];
      var l := m[n];
      var v := ctx.readAttribute(attrs[0], l.declType).value;
      var m' := m - {n};
      var fields' := fields[l.field := v];
      AttributeFieldsKept(ctx, rest, m', fields');
      assert attrs == [attrs[0]] + rest;
      assert l.field in FieldsOf(AttrNames(attrs), m);
      assert FieldsOf(AttrNames(rest), m') <= FieldsOf(AttrNames(attrs), m);
    }
  }

  /** A successful attribute phase assigns each attribute's converted value to
      the field of the label it matched. */
  lemma {:induction false} AttributeValuesAssigned(ctx: Context, attrs: seq<Attr>, m: LabelMap, fields: map<string, Value>)
    requires ReadAttributes(ctx, attrs, m, fields).Success?
    requires DistinctFields(m)
    ensures var out := ReadAttributes(ctx, attrs, m, fields).value.fields;
            forall i :: 0 <= i < |attrs| ==>
              && attrs[i].name in m
              && m[attrs[i].name].field in out
              && ctx.readAttribute(attrs[i], m[attrs[i].name].declType) == Success(out[m[attrs[i].name].field])
    decreases |attrs|
  {
    if |attrs| > 0 {
      var n := attrs[0].name;
      var rest := attrs[1..];
      var l := m[n];
      var v := ctx.readAttribute(attrs[0], l.declType).value;
      var m' := m - {n};
      var fields' := fields[l.field := v];
      var out := ReadAttributes(ctx, rest, m', fields').value.fields;
      assert ReadAttributes(ctx, attrs, m, fields).value.fields == out;
      AttributeValuesAssigned(ctx, rest, m', fields');
      AttributeFieldsKept(ctx, rest, m', fields');
      assert l.field !in FieldsOf(AttrNames(rest), m');
      forall i | 0 < i < |attrs|
        ensures attrs[i].name in m && m[attrs[i].name].field in out
        ensures ctx.readAttribute(attrs[i], m[attrs[i].name].declType) == Success(out[m[attrs[i].name].field])
      {
        assert attrs[i] == rest[i - 1];
      }
    }
  }

  /** The error of the attribute phase when conversions succeed: an
      AttributeError naming the first attribute without a remaining label. */
  lemma {:induction false} FirstUnmatchedAttributeFails(ctx: Context, attrs: seq<Attr>, m: LabelMap,
                                                        fields: map<string, Value>, k: int)
    requires FirstUnmatched(AttrNameSeq(attrs), m, k)
    requires forall i :: 0 <= i < k ==> ctx.readAttribute(attrs[i], m[attrs[i].name].declType).Success?
    ensures ReadAttributes(ctx, attrs, m, fields) == Failure(AttributeError(attrs[k].name, DoesNotExist))
    decreases k
  {
    var names := AttrNameSeq(attrs);
    var n := attrs[0].name;
    if k > 0 {
      assert names[..k][0] == n;
      var v := ctx.readAttribute(attrs[0], m[n].declType).value;
      var rest := attrs[1..];
      assert forall i :: 1 <= i < |attrs| ==> attrs[i] == rest[i - 1];
      assert AttrNameSeq(rest) == names[1..];
      FirstUnmatchedTail(names, m, k);
      FirstUnmatchedAttributeFails(ctx, rest, m - {n}, fields[m[n].field := v], k - 1);
    } else {
      assert names[..0] == [];
    }
  }

  // ---------------------------------------------------------------------------
  // element phase
  // ---------------------------------------------------------------------------

  /** Text and other non-element children change nothing in the element phase:
      the result is that of the element children alone. */
  lemma {:induction false} TextChildrenIgnored(ctx: Context, kids: seq<Child>, m: LabelMap, fields: map<string, Value>)
    ensures ReadElements(ctx, kids, m, fields) == ReadElements(ctx, ElementKids(Elements(kids)), m, fields)
    decreases |kids|
  {
    if |kids| > 0 {
      var es := Elements(kids);
      match kids[0]
      case Text(_) =>
        TextChildrenIgnored(ctx, kids[1..], m, fields);
      case Elem(c) =>
        assert es == [c] + Elements(kids[1..]);
        var ek := ElementKids(es);
        assert ek[0] == Elem(c);
        assert ek[1..] == ElementKids(Elements(kids[1..]));
        if c.name in m {
          var r := ReadValue(ctx, c, m[c.name]);
          if r.Success? {
            TextChildrenIgnored(ctx, kids[1..], m - {c.name}, fields[m[c.name].field := r.value]);
          }
        }
    }
  }

  /** Element children as children. */
  function ElementKids(ns: seq<Node>): (r: seq<Child>)
    ensures |r| == |ns| && forall i :: 0 <= i < |ns| ==> r[i] == Elem(ns[i])
  {
    seq(|ns|, i requires 0 <= i < |ns| => Elem(ns[i]))
  }

  /** Every element has its own label, and its label's converter reads it. */
  predicate ElementsReadable(ctx: Context, es: seq<Node>, m: LabelMap) {
    && Matchable(Names(es), m)
    && forall i :: 0 <= i < |es| && es[i].name in m ==> ReadValue(ctx, es[i], m[es[i].name]).Success?
  }

  lemma ElementsReadableCons(ctx: Context, c: Node, es: seq<Node>, m: LabelMap)
    ensures ElementsReadable(ctx, [c] + es, m) <==>
              && c.name in m && ReadValue(ctx, c, m[c.name]).Success?
              && ElementsReadable(ctx, es, m - {c.name})
  {
    assert Names([c] + es) == [c.name] + Names(es);
    MatchableCons(c.name, Names(es), m);
    assert forall i :: 0 <= i < |es| ==> ([c] + es)[i + 1] == es[i];
  }

  /** The element phase succeeds exactly when every element child has its own
      label and its label's converter reads it. */
  lemma {:induction false} ElementsSucceedIff(ctx: Context, kids: seq<Child>, m: LabelMap, fields: map<string, Value>)
    ensures ReadElements(ctx, kids, m, fields).Success? <==> ElementsReadable(ctx, Elements(kids), m)
    decreases |kids|
  {
    if |kids| > 0 {
      var rest := kids[1..];
      match kids[0]
      case Text(_) =>
        assert Elements(kids) == Elements(rest);
        ElementsSucceedIff(ctx, rest, m, fields);
      case Elem(c) =>
        assert kids == [Elem(c)] + rest;
        ElementsOfElem(c, rest);
        ElementsReadableCons(ctx, c, Elements(rest), m);
        if c.name in m && ReadValue(ctx, c, m[c.name]).Success? {
          ElementStep(ctx, c, rest, m, fields);
          ElementsSucceedIff(ctx, rest, m - {c.name}, fields[m[c.name].field := ReadValue(ctx, c, m[c.name]).value]);
        }
    }
  }

  /** A successful element phase touches only the fields of the labels it
      matched: every other field keeps its value. */
  lemma {:induction false} ElementFieldsKept(ctx: Context, kids: seq<Child>, m: LabelMap, fields: map<string, Value>)
    requires ReadElements(ctx, kids, m, fields).Success?
    ensures var out := ReadElements(ctx, kids, m, fields).value.fields;
            forall f :: f in fields && f !in FieldsOf(ElementNames(kids), m) ==> f in out && out[f] == fields[f]
    decreases |kids|
  {
    if |kids| > 0 {
      var rest := kids[1..];
      match kids[0]
      case Text(_) =>
        assert Elements(kids) == Elements(rest);
        ElementFieldsKept(ctx, rest, m, fields);
      case Elem(c) =>
        var n := c.name;
        var l := m[n];
        var v := ReadValue(ctx, c, l).value;
        var m' := m - {n};
        var fields' := fields[l.field := v];
        ElementFieldsKept(ctx, rest, m', fields');
        assert Elements(kids) == [c] + Elements(rest);
        assert l.field in FieldsOf(ElementNames(kids), m);
        assert FieldsOf(ElementNames(rest), m') <= FieldsOf(ElementNames(kids), m);
    }
  }

  /** Each element of `es` matched a label of `m` whose field holds the value
      that element reads to. */
  predicate ElementsAssigned(ctx: Context, es: seq<Node>, m: LabelMap, out: map<string, Value>) {
    forall i :: 0 <= i < |es| ==>
      && es[i].name in m
      && m[es[i].name].field in out
      && ReadValue(ctx, es[i], m[es[i].name]) == Success(out[m[es[i].name].field])
  }

  lemma ElementsAssignedCons(ctx: Context, c: Node, es: seq<Node>, m: LabelMap, out: map<string, Value>)
    requires c.name in m && m[c.name].field in out
    requires ReadValue(ctx, c, m[c.name]) == Success(out[m[c.name].field])
    requires ElementsAssigned(ctx, es, m - {c.name}, out)
    ensures ElementsAssigned(ctx, [c] + es, m, out)
  {
    forall i | 0 < i < |es| + 1
      ensures ([c] + es)[i].name in m && m[([c] + es)[i].name].field in out
      ensures ReadValue(ctx, ([c] + es)[i], m[([c] + es)[i].name]) == Success(out[m[([c] + es)[i].name].field])
    {
      assert ([c] + es)[i] == es[i - 1];
    }
  }

  /** A successful element phase assigns each element child's value to the
      field of the label it matched. */
  lemma {:induction false} ElementValuesAssigned(ctx: Context, kids: seq<Child>, m: LabelMap, fields: map<string, Value>)
    requires ReadElements(ctx, kids, m, fields).Success?
    requires DistinctFields(m)
    ensures ElementsAssigned(ctx, Elements(kids), m, ReadElements(ctx, kids, m, fields).value.fields)
    decreases |kids|, 1
  {
    if |kids| > 0 {
      var rest := kids[1..];
      match kids[0]
      case Text(_) =>
        assert Elements(kids) == Elements(rest);
        ElementValuesAssigned(ctx, rest, m, fields);
      case Elem(c) =>
        assert kids == [Elem(c)] + rest;
        ElementValuesStep(ctx, c, rest, m, fields);
    }
  }

  lemma {:induction false} ElementValuesStep(ctx: Context, c: Node, rest: seq<Child>, m: LabelMap, fields: map<string, Value>)
    requires ReadElements(ctx, [Elem(c)] + rest, m, fields).Success?
    requires DistinctFields(m)
    ensures ElementsAssigned(ctx, Elements([Elem(c)] + rest), m, ReadElements(ctx, [Elem(c)] + rest, m, fields).value.fields)
    decreases |rest| + 1, 0
  {
    var n := c.name;
    var l := m[n];
    var v := ReadValue(ctx, c, l).value;
    var m' := m - {n};
    var fields' := fields[l.field := v];
    ElementStep(ctx, c, rest, m, fields);
    ElementsOfElem(c, rest);
    var out := ReadElements(ctx, rest, m', fields').value.fields;
    ElementValuesAssigned(ctx, rest, m', fields');
    ElementFieldsKept(ctx, rest, m', fields');
    assert l.field !in FieldsOf(ElementNames(rest), m');
    ElementsAssignedCons(ctx, c, Elements(rest), m, out);
  }

  /** The error of the element phase when the converters succeed: an
      ElementError naming the first element child without a remaining label;
      in particular a second child with an already matched name. */
  lemma {:induction false} FirstUnmatchedElementFails(ctx: Context, kids: seq<Child>, m: LabelMap,
                                                      fields: map<string, Value>, k: int)
    requires FirstUnmatched(Names(Elements(kids)), m, k)
    requires forall i :: 0 <= i < k ==> Elements(kids)[i].name in m
                                        && ReadValue(ctx, Elements(kids)[i], m[Elements(kids)[i].name]).Success?
    ensures ReadElements(ctx, kids, m, fields) == Failure(ElementError(Elements(kids)[k].name, DoesNotExist))
    decreases |kids|, 1
  {
    var es := Elements(kids);
    var names := Names(es);
    var rest := kids[1..];
    match kids[0]
    case Text(_) =>
      assert es == Elements(rest);
      FirstUnmatchedElementFails(ctx, rest, m, fields, k);
    case Elem(c) =>
      var res := Elements(rest);
      assert es == [c] + res;
      var n := c.name;
      if k > 0 {
        FirstUnmatchedElementStep(ctx, c, rest, m, fields, k);
      } else {
        assert names[..0] == [];
        assert names[0] == n;
      }
  }

  /** The inductive step of FirstUnmatchedElementFails for a leading element
      child that is matched and read. */
  lemma {:induction false} FirstUnmatchedElementStep(ctx: Context, c: Node, rest: seq<Child>, m: LabelMap,
                                                     fields: map<string, Value>, k: int)
    requires k > 0
    requires FirstUnmatched(Names(Elements([Elem(c)] + rest)), m, k)
    requires forall i :: 0 <= i < k ==> Elements([Elem(c)] + rest)[i].name in m
                                        && ReadValue(ctx, Elements([Elem(c)] + rest)[i],
                                                     m[Elements([Elem(c)] + rest)[i].name]).Success?
    ensures ReadElements(ctx, [Elem(c)] + rest, m, fields)
            == Failure(ElementError(Elements([Elem(c)] + rest)[k].name, DoesNotExist))
    decreases |rest| + 1, 0
  {
    var kids := [Elem(c)] + rest;
    var es := Elements(kids);
    var res := Elements(rest);
    ElementsOfElem(c, rest);
    var names := Names(es);
    var n := c.name;
    assert names[..k][0] == n;
    var v := ReadValue(ctx, c, m[n]).value;
    assert Names(res) == names[1..];
    FirstUnmatchedTail(names, m, k);
    forall i | 0 <= i < k - 1
      ensures res[i].name in m - {n} && ReadValue(ctx, res[i], (m - {n})[res[i].name]).Success?
    {
      assert es[i + 1] == res[i];
      assert names[1..][..k - 1][i] == res[i].name;
      assert (m - {n})[res[i].name] == m[es[i + 1].name];
    }
    assert FirstUnmatched(Names(res), m - {n}, k - 1);
    var m' := m - {n};
    assert forall i :: 0 <= i < k - 1 ==>
      Elements(rest)[i].name in m' && ReadValue(ctx, Elements(rest)[i], m'[Elements(rest)[i].name]).Success?;
    FirstUnmatchedElementFails(ctx, rest, m - {n}, fields[m[n].field := v], k - 1);
    assert es[k] == res[k - 1];
    ElementStep(ctx, c, rest, m, fields);
  }

  /** One matched and read element child: the phase goes on with its label consumed. */
  lemma ElementStep(ctx: Context, c: Node, rest: seq<Child>, m: LabelMap, fields: map<string, Value>)
    requires c.name in m && ReadValue(ctx, c, m[c.name]).Success?
    ensures ReadElements(ctx, [Elem(c)] + rest, m, fields)
            == ReadElements(ctx, rest, m - {c.name}, fields[m[c.name].field := ReadValue(ctx, c, m[c.name]).value])
  {
    assert ([Elem(c)] + rest)[1..] == rest;
  }

  /** Past a matched first name, the first unmatched position moves down by one
      in the map with that name's label consumed. */
  lemma FirstUnmatchedTail(names: seq<string>, m: LabelMap, k: int)
    requires k > 0 && FirstUnmatched(names, m, k)
    ensures FirstUnmatched(names[1..], m - {names[0]}, k - 1)
    ensures forall i :: 0 <= i < k - 1 ==> names[1..][i] != names[0]
  {
    var n := names[0];
    var rnames := names[1..];
    assert names[..k][0] == n;
    assert rnames[..k - 1] == names[1..k];
    assert Matchable(rnames[..k - 1], m - {n}) by {
      forall i | 0 <= i < k - 1 ensures rnames[i] in m - {n} {
        assert names[..k][0] != names[..k][i + 1];
      }
    }
    assert rnames[k - 1] !in m - {n} || rnames[k - 1] in rnames[..k - 1] by {
      if names[k] in names[..k] && names[k] != n {
        var j :| 0 <= j < k && names[..k][j] == names[k];
        assert j != 0;
        assert rnames[..k - 1][j - 1] == names[k];
      }
    }
    forall i | 0 <= i < k - 1 ensures rnames[i] != n {
      assert names[..k][0] != names[..k][i + 1];
    }
  }

  // ---------------------------------------------------------------------------
  // readCheck and the composite read
  // ---------------------------------------------------------------------------

  /** readCheck over a traversal map drawn from a partition fails exactly when
      some label left in the map is required; optional leftovers pass. */
  lemma CheckFailsIffRequiredLeft(order: seq<Label>, remaining: LabelMap)
    requires remaining.Keys <= LabelNames(order)
    ensures MissingRequired(order, remaining).Some? <==> exists k :: k in remaining && remaining[k].required
  {
    if k :| k in remaining && remaining[k].required {
      var i :| 0 <= i < |order| && order[i].name == k;
    }
  }

  /** After a successful attribute phase, readCheck passes exactly when every
      required attribute label found an attribute of its name. */
  lemma AttributeCheckIff(ctx: Context, attrs: seq<Attr>, labels: seq<Label>, fields: map<string, Value>)
    requires ReadAttributes(ctx, attrs, ToLabelMap(labels), fields).Success?
    ensures MissingRequired(labels, ReadAttributes(ctx, attrs, ToLabelMap(labels), fields).value.remaining).None?
            <==> forall l :: l in ToLabelMap(labels).Values && l.required ==> l.name in AttrNames(attrs)
  {
    var m := ToLabelMap(labels);
    var rem := ReadAttributes(ctx, attrs, m, fields).value.remaining;
    CheckFailsIffRequiredLeft(labels, rem);
    if l :| l in m.Values && l.required && l.name !in AttrNames(attrs) {
      var k :| k in m && m[k] == l;
      assert k in rem;
    }
  }

  /** A successful read met every required label: each required attribute
      label named an attribute the factory left on the node, and each required
      element label named an element child. */
  lemma RequiredLabelsMet(ctx: Context, node: Node, declType: TypeName)
    requires ReadComposite(ctx, node, declType).Success?
    ensures var inst := ctx.instantiate(node, declType).value;
            var schema := ctx.schemaOf(inst.typeName);
            && (forall l :: l in ToLabelMap(schema.attributes).Values && l.required ==> l.name in AttrNames(inst.attrs))
            && (forall l :: l in ToLabelMap(schema.elements).Values && l.required ==> l.name in ElementNames(node.children))
  {
    var inst := ctx.instantiate(node, declType).value;
    var schema := ctx.schemaOf(inst.typeName);
    AttributeCheckIff(ctx, inst.attrs, schema.attributes, inst.fields);
    var a := ReadAttributes(ctx, inst.attrs, ToLabelMap(schema.attributes), inst.fields).value;
    var me := ToLabelMap(schema.elements);
    var e := ReadElements(ctx, node.children, me, a.fields).value;
    CheckFailsIffRequiredLeft(schema.elements, e.remaining);
    forall l | l in me.Values && l.required ensures l.name in ElementNames(node.children) {
      var k :| k in me && me[k] == l;
      assert k !in e.remaining;
    }
  }

  /** A successful read leaves every field no label of the class is bound to
      at the value the factory's new object started with: an optional label
      left unmatched changes nothing. */
  lemma CompositeFieldsKept(ctx: Context, node: Node, declType: TypeName)
    requires ReadComposite(ctx, node, declType).Success?
    ensures var inst := ctx.instantiate(node, declType).value;
            var schema := ctx.schemaOf(inst.typeName);
            var out := ReadComposite(ctx, node, declType).value.fields;
            forall f :: f in inst.fields && f !in LabelFields(schema.attributes) && f !in LabelFields(schema.elements)
              ==> f in out && out[f] == inst.fields[f]
  {
    var inst := ctx.instantiate(node, declType).value;
    var schema := ctx.schemaOf(inst.typeName);
    var ma, me := ToLabelMap(schema.attributes), ToLabelMap(schema.elements);
    var a := ReadAttributes(ctx, inst.attrs, ma, inst.fields).value;
    AttributeFieldsKept(ctx, inst.attrs, ma, inst.fields);
    ElementFieldsKept(ctx, node.children, me, a.fields);
    assert FieldsOf(AttrNames(inst.attrs), ma) <= LabelFields(schema.attributes);
    assert FieldsOf(ElementNames(node.children), me) <= LabelFields(schema.elements);
  }

  /** A successful read assigns, under the one-annotation-per-field rule, each
      attribute the factory left on the node to its label's field as converted
      and each element child to its label's field as its converter read it. */
  lemma CompositeValuesAssigned(ctx: Context, node: Node, declType: TypeName)
    requires ReadComposite(ctx, node, declType).Success?
    requires var schema := ctx.schemaOf(ctx.instantiate(node, declType).value.typeName);
             && DistinctFields(ToLabelMap(schema.attributes))
             && DistinctFields(ToLabelMap(schema.elements))
             && LabelFields(schema.attributes) !! LabelFields(schema.elements)
    ensures var inst := ctx.instantiate(node, declType).value;
            var ma := ToLabelMap(ctx.schemaOf(inst.typeName).attributes);
            var out := ReadComposite(ctx, node, declType).value.fields;
            forall i :: 0 <= i < |inst.attrs| ==>
              && inst.attrs[i].name in ma
              && ma[inst.attrs[i].name].field in out
              && ctx.readAttribute(inst.attrs[i], ma[inst.attrs[i].name].declType) == Success(out[ma[inst.attrs[i].name].field])
    ensures var inst := ctx.instantiate(node, declType).value;
            ElementsAssigned(ctx, Elements(node.children), ToLabelMap(ctx.schemaOf(inst.typeName).elements),
                             ReadComposite(ctx, node, declType).value.fields)
  {
    var inst := ctx.instantiate(node, declType).value;
    var schema := ctx.schemaOf(inst.typeName);
    var ma, me := ToLabelMap(schema.attributes), ToLabelMap(schema.elements);
    var a := ReadAttributes(ctx, inst.attrs, ma, inst.fields).value;
    var out := ReadElements(ctx, node.children, me, a.fields).value.fields;
    assert ReadComposite(ctx, node, declType).value.fields == out;
    AttributeValuesAssigned(ctx, inst.attrs, ma, inst.fields);
    ElementValuesAssigned(ctx, node.children, me, a.fields);
    ElementFieldsKept(ctx, node.children, me, a.fields);
    forall i | 0 <= i < |inst.attrs|
      ensures ma[inst.attrs[i].name].field !in FieldsOf(ElementNames(node.children), me)
    {
      assert ma[inst.attrs[i].name] in schema.attributes;
      assert FieldsOf(ElementNames(node.children), me) <= LabelFields(schema.elements);
    }
  }

  /** A missing required attribute fails the read with FieldRequiredError for
      a required attribute label left unmatched, whatever the children are. */
  lemma MissingRequiredAttributeFails(ctx: Context, node: Node, declType: TypeName, missing: Label)
    requires ctx.instantiate(node, declType).Success?
    requires var inst := ctx.instantiate(node, declType).value;
             var m := ToLabelMap(ctx.schemaOf(inst.typeName).attributes);
             && ReadAttributes(ctx, inst.attrs, m, inst.fields).Success?
             && missing in m.Values && missing.required && missing.name !in AttrNames(inst.attrs)
    ensures var inst := ctx.instantiate(node, declType).value;
            var r := ReadComposite(ctx, node, declType);
            && r.Failure? && r.error.FieldRequiredError? && r.error.owner == inst.typeName
            && r.error.labelName !in AttrNames(inst.attrs)
            && r.error.labelName in ToLabelMap(ctx.schemaOf(inst.typeName).attributes)
            && ToLabelMap(ctx.schemaOf(inst.typeName).attributes)[r.error.labelName].required
  {
    var inst := ctx.instantiate(node, declType).value;
    AttributeCheckIff(ctx, inst.attrs, ctx.schemaOf(inst.typeName).attributes, inst.fields);
  }

  /** The element-side counterpart: once the attributes are read and checked
      and the element children read, a required element label no child
      matched fails the read with FieldRequiredError for a required element
      label left unmatched. */
  lemma MissingRequiredElementFails(ctx: Context, node: Node, declType: TypeName, missing: Label)
    requires ctx.instantiate(node, declType).Success?
    requires var inst := ctx.instantiate(node, declType).value;
             var schema := ctx.schemaOf(inst.typeName);
             var a := ReadAttributes(ctx, inst.attrs, ToLabelMap(schema.attributes), inst.fields);
             && a.Success? && MissingRequired(schema.attributes, a.value.remaining).None?
             && ReadElements(ctx, node.children, ToLabelMap(schema.elements), a.value.fields).Success?
             && missing in ToLabelMap(schema.elements).Values && missing.required
             && missing.name !in ElementNames(node.children)
    ensures var inst := ctx.instantiate(node, declType).value;
            var me := ToLabelMap(ctx.schemaOf(inst.typeName).elements);
            var r := ReadComposite(ctx, node, declType);
            && r.Failure? && r.error.FieldRequiredError? && r.error.owner == inst.typeName
            && r.error.labelName !in ElementNames(node.children)
            && r.error.labelName in me && me[r.error.labelName].required
  {
    var inst := ctx.instantiate(node, declType).value;
    var schema := ctx.schemaOf(inst.typeName);
    var a := ReadAttributes(ctx, inst.attrs, ToLabelMap(schema.attributes), inst.fields).value;
    var me := ToLabelMap(schema.elements);
    var e := ReadElements(ctx, node.children, me, a.fields).value;
    var k :| k in me && me[k] == missing;
    assert k in e.remaining;
    CheckFailsIffRequiredLeft(schema.elements, e.remaining);
  }

  /** The attribute phase and its check finish before any element is read: when
      they fail, the element children (even unknown ones) make no difference. */
  lemma AttributeErrorsComeFirst(ctx: Context, node: Node, kids: seq<Child>, declType: TypeName)
    requires ctx.instantiate(node, declType).Success?
    requires ctx.instantiate(node.(children := kids), declType) == ctx.instantiate(node, declType)
    requires var inst := ctx.instantiate(node, declType).value;
             var labels := ctx.schemaOf(inst.typeName).attributes;
             var a := ReadAttributes(ctx, inst.attrs, ToLabelMap(labels), inst.fields);
             a.Failure? || MissingRequired(labels, a.value.remaining).Some?
    ensures ReadComposite(ctx, node.(children := kids), declType) == ReadComposite(ctx, node, declType)
    ensures ReadComposite(ctx, node, declType).Failure?
  {
  }

  /** Closed schema: an attribute the factory leaves on the node, or an element
      child, whose name has no label in its partition fails the read. */
  lemma UndeclaredNodeFails(ctx: Context, node: Node, declType: TypeName)
    requires ctx.instantiate(node, declType).Success?
    requires var inst := ctx.instantiate(node, declType).value;
             var schema := ctx.schemaOf(inst.typeName);
             || !(AttrNames(inst.attrs) <= LabelNames(schema.attributes))
             || !(ElementNames(node.children) <= LabelNames(schema.elements))
    ensures ReadComposite(ctx, node, declType).Failure?
  {
    var inst := ctx.instantiate(node, declType).value;
    var schema := ctx.schemaOf(inst.typeName);
    var a := ReadAttributes(ctx, inst.attrs, ToLabelMap(schema.attributes), inst.fields);
    if a.Success? && MissingRequired(schema.attributes, a.value.remaining).None? {
      var e := ReadElements(ctx, node.children, ToLabelMap(schema.elements), a.value.fields);
      assert e.Success? ==> ElementNames(node.children) <= LabelNames(schema.elements);
    }
  }
}

=== FILE: roundtrip.dfy ===
/**
 * The round trip Composite promises: an object written with a schema can be
 * read back with the same schema. Stated for a class whose element labels
 * are all Primitive, under what the round trip needs of the code outside the
 * converter: the factory instantiates the written node as the object's own
 * class and leaves its attributes to the converter, and the transforms read
 * each attribute text and each leaf element back as the value they wrote.
 * The fields the factory's new object starts with are a parameter: a field
 * the writer left out because it was null keeps that starting value.
 */
module RoundTrip {
  import opened Errors
  import opened Dom
  import opened Schema
  import opened Objects
  import opened Collaborators
  import opened Load
  import ReadLemmas

  // ---------------------------------------------------------------------------
  // What the writer emits and what the reader restores
  // ---------------------------------------------------------------------------

  /** The names of the labels whose field is set: exactly the labels the
      writer emits. */
  function PresentNames(obj: Value, labels: seq<Label>): set<string> {
    set l | l in labels && !FieldOf(obj, l.field).Null? :: l.name
  }

  /** The part of an object a read can restore: each labelled field that is
      set, with its value. Null fields are never written, so they stay
      unassigned. */
  function Copied(obj: Value, labels: seq<Label>): map<string, Value> {
    map f | f in LabelFields(labels) && !FieldOf(obj, f).Null? :: FieldOf(obj, f)
  }

  /** The attributes writeAttributes adds, in label order: one per set field. */
  function WrittenAttrs(ctx: Context, obj: Value, labels: seq<Label>): seq<Attr> {
    if |labels| == 0 then []
    else
      var v := FieldOf(obj, labels[0].field);
      (if v.Null? then [] else [Attr(labels[0].name, AttributeText(ctx, v))])
      + WrittenAttrs(ctx, obj, labels[1..])
  }

  /** The element Primitive.write leaves for a set field: the shell of
      writeElement with the value's text as its only child. */
  function LeafElement(ctx: Context, v: Value, lab: Label): Node
    requires !v.Null?
  {
    Shell(ctx, v, lab).(children := [Text(ctx.leafText(v))])
  }

  /** The children writeElements adds for Primitive labels, in label order. */
  function WrittenKids(ctx: Context, obj: Value, labels: seq<Label>): seq<Child> {
    if |labels| == 0 then []
    else
      var v := FieldOf(obj, labels[0].field);
      (if v.Null? then [] else [Elem(LeafElement(ctx, v, labels[0]))])
      + WrittenKids(ctx, obj, labels[1..])
  }

  predicate AllPrimitive(labels: seq<Label>) {
    forall i :: 0 <= i < |labels| ==> labels[i].converter.Primitive?
  }

  /** Every label is found in the traversal map under its own name. */
  predicate Keyed(labels: seq<Label>, m: LabelMap) {
    forall i :: 0 <= i < |labels| ==> labels[i].name in m && m[labels[i].name] == labels[i]
  }

  /** The attribute transform reads every text the writer emits back as the
      field value it came from. */
  predicate AttributesInvert(ctx: Context, obj: Value, labels: seq<Label>) {
    forall i :: 0 <= i < |labels| && !FieldOf(obj, labels[i].field).Null? ==>
      ctx.readAttribute(Attr(labels[i].name, AttributeText(ctx, FieldOf(obj, labels[i].field))), labels[i].declType)
      == Success(FieldOf(obj, labels[i].field))
  }

  /** The leaf transform reads every element the writer emits back as the
      field value it came from. */
  predicate LeavesInvert(ctx: Context, obj: Value, labels: seq<Label>) {
    forall i :: 0 <= i < |labels| && !FieldOf(obj, labels[i].field).Null? ==>
      ctx.readLeaf(LeafElement(ctx, FieldOf(obj, labels[i].field), labels[i]), labels[i].declType)
      == Success(FieldOf(obj, labels[i].field))
  }

  // ---------------------------------------------------------------------------
  // The write side
  // ---------------------------------------------------------------------------

  lemma Associative<T>(a: seq<T>, b: seq<T>, c: seq<T>)
    ensures a + b + c == a + (b + c)
  {
  }

  /** setAttribute of a name the element does not carry appends the attribute. */
  lemma {:induction false} UpsertAppends(attrs: seq<Attr>, a: Attr)
    requires a.name !in AttrNames(attrs)
    ensures Upsert(attrs, a) == attrs + [a]
  {
    if |attrs| > 0 {
      assert attrs == [attrs[0]] + attrs[1..];
      assert AttrNames(attrs[1..]) <= AttrNames(attrs);
      UpsertAppends(attrs[1..], a);
    }
  }

  /** A partition with unique names: its tail has unique names too, none of
      them the head's. */
  lemma UniqueTail(labels: seq<Label>)
    requires |labels| > 0 && UniqueNames(labels)
    ensures UniqueNames(labels[1..]) && labels[0].name !in LabelNames(labels[1..])
  {
    assert forall i :: 1 <= i < |labels| ==> labels[i] == labels[1..][i - 1];
    assert forall i :: 1 <= i < |labels| ==> labels[0].name != labels[i].name;
  }

  /** The first label's contribution to the written attributes and children. */
  lemma WrittenStep(ctx: Context, obj: Value, labels: seq<Label>)
    requires |labels| > 0
    ensures var v := FieldOf(obj, labels[0].field);
            && WrittenAttrs(ctx, obj, labels)
               == (if v.Null? then WrittenAttrs(ctx, obj, labels[1..])
                   else [Attr(labels[0].name, AttributeText(ctx, v))] + WrittenAttrs(ctx, obj, labels[1..]))
            && WrittenKids(ctx, obj, labels)
               == (if v.Null? then WrittenKids(ctx, obj, labels[1..])
                   else [Elem(LeafElement(ctx, v, labels[0]))] + WrittenKids(ctx, obj, labels[1..]))
  {
    assert [] + WrittenAttrs(ctx, obj, labels[1..]) == WrittenAttrs(ctx, obj, labels[1..]);
    assert [] + WrittenKids(ctx, obj, labels[1..]) == WrittenKids(ctx, obj, labels[1..]);
  }

  /** writeAttribute on an element without the label's name: nothing for a
      null value, else the attribute appended. */
  lemma AttributeAppended(ctx: Context, v: Value, node: Node, lab: Label)
    requires lab.name !in AttrNames(node.attrs)
    ensures var added := if v.Null? then [] else [Attr(lab.name, AttributeText(ctx, v))];
            WriteAttribute(ctx, v, node, lab) == node.(attrs := node.attrs + added)
    ensures AttrNames(WriteAttribute(ctx, v, node, lab).attrs) <= AttrNames(node.attrs) + {lab.name}
  {
    if v.Null? {
      assert node.attrs + [] == node.attrs;
    } else {
      UpsertAppends(node.attrs, Attr(lab.name, AttributeText(ctx, v)));
    }
  }

  /** On an element carrying none of the labels' names, writeAttributes
      appends one attribute per set field, in label order, and nothing else. */
  lemma {:induction false} AttributesWrittenInOrder(ctx: Context, obj: Value, labels: seq<Label>, node: Node)
    requires WriteAttributes(ctx, obj, labels, node).Success?
    requires UniqueNames(labels) && LabelNames(labels) !! AttrNames(node.attrs)
    ensures WriteAttributes(ctx, obj, labels, node).value
            == node.(attrs := node.attrs + WrittenAttrs(ctx, obj, labels))
  {
    if |labels| > 0 {
      var lab, rest := labels[0], labels[1..];
      var v := FieldOf(obj, lab.field);
      var next := WriteAttribute(ctx, v, node, lab);
      assert WriteAttributes(ctx, obj, labels, node) == WriteAttributes(ctx, obj, rest, next);
      assert LabelNames(labels) == {lab.name} + LabelNames(rest) by {
        assert labels == [lab] + rest;
      }
      UniqueTail(labels);
      AttributeAppended(ctx, v, node, lab);
      AttributesWrittenInOrder(ctx, obj, rest, next);
      WrittenStep(ctx, obj, labels);
      var added := if v.Null? then [] else [Attr(lab.name, AttributeText(ctx, v))];
      assert WrittenAttrs(ctx, obj, labels) == added + WrittenAttrs(ctx, obj, rest);
      Associative(node.attrs, added, WrittenAttrs(ctx, obj, rest));
    }
  }

  /** Primitive.write into the shell of a set field gives its leaf element. */
  lemma LeafWritten(ctx: Context, v: Value, lab: Label, node: Node)
    requires !v.Null? && lab.converter.Primitive?
    ensures WriteElement(ctx, v, node, lab) == Success(AppendChild(node, LeafElement(ctx, v, lab)))
  {
    var shell := Shell(ctx, v, lab);
    assert shell.children + [Text(ctx.leafText(v))] == [Text(ctx.leafText(v))];
  }

  /** For Primitive labels writeElements appends one leaf element per set
      field, in label order, and nothing else. */
  lemma {:induction false} LeavesWrittenInOrder(ctx: Context, obj: Value, labels: seq<Label>, node: Node)
    requires WriteElements(ctx, obj, labels, node).Success?
    requires AllPrimitive(labels)
    ensures WriteElements(ctx, obj, labels, node).value
            == node.(children := node.children + WrittenKids(ctx, obj, labels))
  {
    if |labels| > 0 {
      var lab, rest := labels[0], labels[1..];
      var v := FieldOf(obj, lab.field);
      assert AllPrimitive(rest) by {
        assert forall i :: 1 <= i < |labels| ==> labels[i] == rest[i - 1];
      }
      WrittenStep(ctx, obj, labels);
      if v.Null? {
        assert WriteElements(ctx, obj, labels, node) == WriteElements(ctx, obj, rest, node);
        LeavesWrittenInOrder(ctx, obj, rest, node);
      } else {
        var leaf := LeafElement(ctx, v, lab);
        LeafWritten(ctx, v, lab, node);
        var next := AppendChild(node, leaf);
        assert WriteElements(ctx, obj, labels, node) == WriteElements(ctx, obj, rest, next);
        LeavesWrittenInOrder(ctx, obj, rest, next);
        Associative(node.children, [Elem(leaf)], WrittenKids(ctx, obj, rest));
      }
    }
  }

  // ---------------------------------------------------------------------------
  // The read side
  // ---------------------------------------------------------------------------

  /** Dropping a first label whose field is null changes neither what is
      present nor what is restored. */
  lemma NullLabelDropped(obj: Value, labels: seq<Label>)
    requires |labels| > 0 && FieldOf(obj, labels[0].field).Null?
    ensures PresentNames(obj, labels) == PresentNames(obj, labels[1..])
    ensures Copied(obj, labels) == Copied(obj, labels[1..])
  {
    assert labels == [labels[0]] + labels[1..];
    assert LabelFields(labels) == {labels[0].field} + LabelFields(labels[1..]);
  }

  /** A first label whose field is set adds its name to what is present and
      its field to what is restored. */
  lemma SetLabelAdded(obj: Value, labels: seq<Label>, m: LabelMap, fields: map<string, Value>)
    requires |labels| > 0 && !FieldOf(obj, labels[0].field).Null?
    ensures m - {labels[0].name} - PresentNames(obj, labels[1..]) == m - PresentNames(obj, labels)
    ensures fields[labels[0].field := FieldOf(obj, labels[0].field)] + Copied(obj, labels[1..])
            == fields + Copied(obj, labels)
  {
    assert labels == [labels[0]] + labels[1..];
    assert LabelFields(labels) == {labels[0].field} + LabelFields(labels[1..]);
    assert PresentNames(obj, labels) == {labels[0].name} + PresentNames(obj, labels[1..]);
  }

  /** readAttributes past a first attribute whose label converts it. */
  lemma AttributeStep(ctx: Context, a: Attr, rest: seq<Attr>, m: LabelMap, fields: map<string, Value>)
    requires a.name in m && ctx.readAttribute(a, m[a.name].declType).Success?
    ensures ReadAttributes(ctx, [a] + rest, m, fields)
            == ReadAttributes(ctx, rest, m - {a.name}, fields[m[a.name].field := ctx.readAttribute(a, m[a.name].declType).value])
  {
    assert ([a] + rest)[1..] == rest;
  }

  /** The traversal of the tail: unique names keep the tail's labels in the
      map once the head's name is consumed. */
  lemma TailKeyed(labels: seq<Label>, m: LabelMap)
    requires |labels| > 0 && UniqueNames(labels) && Keyed(labels, m)
    ensures UniqueNames(labels[1..]) && Keyed(labels[1..], m - {labels[0].name})
  {
    assert forall i :: 1 <= i < |labels| ==> labels[i] == labels[1..][i - 1];
    assert forall i :: 1 <= i < |labels| ==> labels[0].name != labels[i].name;
  }

  /** readAttributes over the attributes the writer emitted consumes exactly
      the labels of set fields and assigns each its value back. */
  lemma {:induction false} AttributesReadBack(ctx: Context, obj: Value, labels: seq<Label>, m: LabelMap,
                                              fields: map<string, Value>)
    requires UniqueNames(labels) && Keyed(labels, m) && AttributesInvert(ctx, obj, labels)
    ensures ReadAttributes(ctx, WrittenAttrs(ctx, obj, labels), m, fields)
            == Success(Progress(m - PresentNames(obj, labels), fields + Copied(obj, labels)))
  {
    if |labels| == 0 {
      assert WrittenAttrs(ctx, obj, labels) == [] && WrittenKids(ctx, obj, labels) == [];
      assert fields + Copied(obj, labels) == fields;
      assert m - PresentNames(obj, labels) == m;
    } else {
      var lab, rest := labels[0], labels[1..];
      var v := FieldOf(obj, lab.field);
      TailKeyed(labels, m);
      assert AttributesInvert(ctx, obj, rest) by {
        assert forall i :: 1 <= i < |labels| ==> labels[i] == rest[i - 1];
      }
      if v.Null? {
        NullLabelDropped(obj, labels);
        assert Keyed(rest, m) by {
          assert forall i :: 1 <= i < |labels| ==> labels[i] == rest[i - 1];
        }
        WrittenStep(ctx, obj, labels);
        AttributesReadBack(ctx, obj, rest, m, fields);
      } else {
        SetLabelAdded(obj, labels, m, fields);
        var a := Attr(lab.name, AttributeText(ctx, v));
        WrittenStep(ctx, obj, labels);
        assert ctx.readAttribute(a, lab.declType) == Success(v);
        AttributeStep(ctx, a, WrittenAttrs(ctx, obj, rest), m, fields);
        AttributesReadBack(ctx, obj, rest, m - {lab.name}, fields[lab.field := v]);
      }
    }
  }

  /** readElements over the leaf elements the writer emitted consumes exactly
      the labels of set fields and assigns each its value back. */
  lemma {:induction false} LeavesReadBack(ctx: Context, obj: Value, labels: seq<Label>, m: LabelMap,
                                          fields: map<string, Value>)
    requires UniqueNames(labels) && Keyed(labels, m) && AllPrimitive(labels) && LeavesInvert(ctx, obj, labels)
    ensures ReadElements(ctx, WrittenKids(ctx, obj, labels), m, fields)
            == Success(Progress(m - PresentNames(obj, labels), fields + Copied(obj, labels)))
  {
    if |labels| == 0 {
      assert WrittenAttrs(ctx, obj, labels) == [] && WrittenKids(ctx, obj, labels) == [];
      assert fields + Copied(obj, labels) == fields;
      assert m - PresentNames(obj, labels) == m;
    } else {
      var lab, rest := labels[0], labels[1..];
      var v := FieldOf(obj, lab.field);
      TailKeyed(labels, m);
      assert AllPrimitive(rest) && LeavesInvert(ctx, obj, rest) by {
        assert forall i :: 1 <= i < |labels| ==> labels[i] == rest[i - 1];
      }
      if v.Null? {
        NullLabelDropped(obj, labels);
        assert Keyed(rest, m) by {
          assert forall i :: 1 <= i < |labels| ==> labels[i] == rest[i - 1];
        }
        WrittenStep(ctx, obj, labels);
        LeavesReadBack(ctx, obj, rest, m, fields);
      } else {
        SetLabelAdded(obj, labels, m, fields);
        var leaf := LeafElement(ctx, v, lab);
        WrittenStep(ctx, obj, labels);
        assert ReadValue(ctx, leaf, m[leaf.name]) == Success(v);
        ReadLemmas.ElementStep(ctx, leaf, WrittenKids(ctx, obj, rest), m, fields);
        LeavesReadBack(ctx, obj, rest, m - {lab.name}, fields[lab.field := v]);
      }
    }
  }

  /** readCheck passes after reading back a written partition: every label
      left in the map has a null field, and the write refused null required
      fields. */
  lemma NothingMissing(obj: Value, labels: seq<Label>)
    requires UniqueNames(labels)
    requires forall i :: 0 <= i < |labels| && labels[i].required ==> !FieldOf(obj, labels[i].field).Null?
    ensures MissingRequired(labels, ToLabelMap(labels) - PresentNames(obj, labels)).None?
  {
    var m := ToLabelMap(labels);
    forall i | 0 <= i < |labels| && labels[i].name in m - PresentNames(obj, labels)
      ensures !labels[i].required
    {
      assert m[labels[i].name] == labels[i];
    }
  }

  /** What the two partitions restore together, over the fields the new
      object starts with. */
  lemma CopiedConcat(obj: Value, attributes: seq<Label>, elements: seq<Label>, init: map<string, Value>)
    ensures init + Copied(obj, attributes) + Copied(obj, elements) == init + Copied(obj, attributes + elements)
  {
    assert LabelFields(attributes + elements) == LabelFields(attributes) + LabelFields(elements);
  }

  // ---------------------------------------------------------------------------
  // The round trip
  // ---------------------------------------------------------------------------

  /** The assumptions the round trip makes of a class's schema and of the
      transforms for one object: labels unique in each partition, Primitive
      elements, and transforms that read back what they wrote. */
  predicate Invertible(ctx: Context, obj: Value)
    requires obj.Obj?
  {
    var schema := ctx.schemaOf(obj.typeName);
    && UniqueNames(schema.attributes) && UniqueNames(schema.elements)
    && AllPrimitive(schema.elements)
    && AttributesInvert(ctx, obj, schema.attributes)
    && LeavesInvert(ctx, obj, schema.elements)
  }

  /** The element Composite.write leaves on a fresh element: the written
      attributes, then the written leaf elements. */
  lemma CompositeShape(ctx: Context, obj: Value, name: string)
    requires obj.Obj? && Invertible(ctx, obj)
    requires WriteComposite(ctx, obj, NewElement(name)).Success?
    ensures var schema := ctx.schemaOf(obj.typeName);
            WriteComposite(ctx, obj, NewElement(name)).value
            == Node(name, WrittenAttrs(ctx, obj, schema.attributes), WrittenKids(ctx, obj, schema.elements))
  {
    var schema := ctx.schemaOf(obj.typeName);
    var node := NewElement(name);
    AttributesWrittenInOrder(ctx, obj, schema.attributes, node);
    var withAttrs := WriteAttributes(ctx, obj, schema.attributes, node).value;
    LeavesWrittenInOrder(ctx, obj, schema.elements, withAttrs);
  }

  /** Reading the written element: both phases restore their partition's set
      fields over those the factory's new object starts with, and both checks
      pass. */
  lemma ShapeReadBack(ctx: Context, obj: Value, name: string, init: map<string, Value>)
    requires obj.Obj? && Invertible(ctx, obj)
    requires var schema := ctx.schemaOf(obj.typeName);
             && (forall i :: 0 <= i < |schema.attributes| && schema.attributes[i].required ==>
                   !FieldOf(obj, schema.attributes[i].field).Null?)
             && (forall i :: 0 <= i < |schema.elements| && schema.elements[i].required ==>
                   !FieldOf(obj, schema.elements[i].field).Null?)
    requires var schema := ctx.schemaOf(obj.typeName);
             var wa := WrittenAttrs(ctx, obj, schema.attributes);
             var out := Node(name, wa, WrittenKids(ctx, obj, schema.elements));
             ctx.instantiate(out, obj.typeName) == Success(Instance(obj.typeName, wa, init))
    ensures var schema := ctx.schemaOf(obj.typeName);
            var out := Node(name, WrittenAttrs(ctx, obj, schema.attributes), WrittenKids(ctx, obj, schema.elements));
            ReadComposite(ctx, out, obj.typeName)
            == Success(Obj(obj.typeName, init + Copied(obj, schema.attributes + schema.elements)))
  {
    var schema := ctx.schemaOf(obj.typeName);
    var ma := ToLabelMap(schema.attributes);
    var me := ToLabelMap(schema.elements);
    AttributesReadBack(ctx, obj, schema.attributes, ma, init);
    NothingMissing(obj, schema.attributes);
    LeavesReadBack(ctx, obj, schema.elements, me, init + Copied(obj, schema.attributes));
    NothingMissing(obj, schema.elements);
    CopiedConcat(obj, schema.attributes, schema.elements, init);
  }

  /** The restored object agrees with the written one on every labelled
      field that was set; a labelled field that was null keeps what the new
      object started with. */
  lemma CopiedAgrees(obj: Value, labels: seq<Label>, t: TypeName, init: map<string, Value>)
    ensures forall l :: l in labels ==>
              FieldOf(Obj(t, init + Copied(obj, labels)), l.field)
              == if FieldOf(obj, l.field).Null? then FieldOf(Obj(t, init), l.field) else FieldOf(obj, l.field)
  {
  }

  /** Writing an object and reading the element back with the same schema
      restores every labelled field that was set, under the object's own
      class. A labelled field that was null is not written, so it keeps the
      value the factory's new object starts with: unassigned when it starts
      with none. */
  lemma CompositeRoundTrip(ctx: Context, obj: Value, name: string, init: map<string, Value>)
    requires obj.Obj? && Invertible(ctx, obj)
    requires WriteComposite(ctx, obj, NewElement(name)).Success?
    requires var out := WriteComposite(ctx, obj, NewElement(name)).value;
             ctx.instantiate(out, obj.typeName) == Success(Instance(obj.typeName, out.attrs, init))
    ensures var schema := ctx.schemaOf(obj.typeName);
            var out := WriteComposite(ctx, obj, NewElement(name)).value;
            ReadComposite(ctx, out, obj.typeName)
            == Success(Obj(obj.typeName, init + Copied(obj, schema.attributes + schema.elements)))
    ensures var schema := ctx.schemaOf(obj.typeName);
            var out := WriteComposite(ctx, obj, NewElement(name)).value;
            forall l :: l in schema.attributes + schema.elements ==>
              FieldOf(ReadComposite(ctx, out, obj.typeName).value, l.field)
              == if FieldOf(obj, l.field).Null? then FieldOf(Obj(obj.typeName, init), l.field) else FieldOf(obj, l.field)
  {
    var schema := ctx.schemaOf(obj.typeName);
    var withAttrs := WriteAttributes(ctx, obj, schema.attributes, NewElement(name));
    assert withAttrs.Success?;
    assert WriteElements(ctx, obj, schema.elements, withAttrs.value).Success?;
    CompositeShape(ctx, obj, name);
    ShapeReadBack(ctx, obj, name, init);
    CopiedAgrees(obj, schema.attributes + schema.elements, obj.typeName, init);
  }

  /** An object holding only labelled, set fields is read back exactly when
      the factory's new object starts with none of the others set. */
  lemma ExactRoundTrip(ctx: Context, obj: Value, name: string, init: map<string, Value>)
    requires obj.Obj? && Invertible(ctx, obj)
    requires var schema := ctx.schemaOf(obj.typeName);
             forall f :: f in obj.fields ==>
               f in LabelFields(schema.attributes + schema.elements) && !obj.fields[f].Null?
    requires init.Keys <= obj.fields.Keys
    requires WriteComposite(ctx, obj, NewElement(name)).Success?
    requires var out := WriteComposite(ctx, obj, NewElement(name)).value;
             ctx.instantiate(out, obj.typeName) == Success(Instance(obj.typeName, out.attrs, init))
    ensures ReadComposite(ctx, WriteComposite(ctx, obj, NewElement(name)).value, obj.typeName) == Success(obj)
  {
    var schema := ctx.schemaOf(obj.typeName);
    CompositeRoundTrip(ctx, obj, name, init);
    CopiedAll(obj, schema.attributes + schema.elements, init);
  }

  /** When every field of an object is labelled and set, and the starting
      fields are among them, the restored fields are exactly the object's. */
  lemma CopiedAll(obj: Value, labels: seq<Label>, init: map<string, Value>)
    requires obj.Obj?
    requires forall f :: f in obj.fields ==> f in LabelFields(labels) && !obj.fields[f].Null?
    requires init.Keys <= obj.fields.Keys
    ensures init + Copied(obj, labels) == obj.fields
  {
    assert Copied(obj, labels) == obj.fields;
  }

  /** The same round trip through the document root: Traverser writes the
      object under its class's root name, and a read that passes the root
      check restores it. */
  lemma RootRoundTrip(ctx: Context, obj: Value, init: map<string, Value>)
    requires obj.Obj? && Invertible(ctx, obj)
    requires WriteRoot(ctx, obj).Success?
    requires var out := WriteRoot(ctx, obj).value;
             && ctx.checkRoot(out, obj.typeName).None?
             && ctx.instantiate(out, obj.typeName) == Success(Instance(obj.typeName, out.attrs, init))
    ensures var schema := ctx.schemaOf(obj.typeName);
            ReadRoot(ctx, WriteRoot(ctx, obj).value, obj.typeName)
            == Success(Obj(obj.typeName, init + Copied(obj, schema.attributes + schema.elements)))
  {
    CompositeRoundTrip(ctx, obj, ctx.schemaOf(obj.typeName).root.value, init);
  }
}

=== FILE: scenarios.dfy ===
/**
 * The classes and documents of the repository's ExceptionTest, as concrete
 * inputs to the model: each lemma states the outcome the test expects of
 * Persister.read or Persister.write, which enter the converters through a
 * root read or write.
 */
module Scenarios {
  import opened Errors
  import opened Dom
  import opened Schema
  import opened Objects
  import opened Collaborators
  import opened Load
  import ReadLemmas
  import ListLemmas

  // ---------------------------------------------------------------------------
  // the annotated classes
  // ---------------------------------------------------------------------------

  const IdLabel := Label("id", "id", false, "int", Primitive)
  const TextLabel := Label("text", "text", true, "String", Primitive)

  /** Entry and ListEntry: an optional id attribute and a required text element. */
  const EntrySchema := Schema(Some("entry"), [IdLabel], [TextLabel])

  /** EntryList: an optional list of Entry, a required name attribute and a
      required text element. */
  const EntryListSchema := Schema(
    Some("root"),
    [Label("name", "name", true, "String", Primitive)],
    [Label("list", "list", false, "List", CompositeList("Entry")), TextLabel])

  /** ListEntry: as Entry, but without a root declaration. */
  const ListEntrySchema := Schema(None, [IdLabel], [TextLabel])

  /** RootListEntry: ListEntry plus a required value attribute. */
  const RootListEntrySchema := Schema(
    Some("entry"),
    [IdLabel, Label("value", "value", true, "String", Primitive)],
    [TextLabel])

  function ExampleSchema(t: TypeName): Schema {
    if t == "Entry" then EntrySchema
    else if t == "EntryList" then EntryListSchema
    else if t == "ListEntry" then ListEntrySchema
    else if t == "RootListEntry" then RootListEntrySchema
    else Schema(None, [], [])
  }

  /** The class hierarchy of the test: RootListEntry and NoRootListEntry extend
      ListEntry, ExtendedEntryList extends EntryList, all extend Object. */
  function ExampleAssignable(a: TypeName, b: TypeName): bool {
    || a == b
    || a == "Object"
    || (a == "ListEntry" && (b == "RootListEntry" || b == "NoRootListEntry"))
    || (a == "EntryList" && b == "ExtendedEntryList")
  }

  /** A leaf element's text: its only text child, or nothing. */
  function ExampleLeaf(n: Node, t: TypeName): Result<Value> {
    if |n.children| == 1 && n.children[0].Text? then Success(Scalar(t, n.children[0].text))
    else Success(Scalar(t, ""))
  }

  function ExampleText(v: Value): string {
    if v.Scalar? then v.datum else ""
  }

  /** A context whose factories instantiate the declared type with no field set and leave the
      attributes in place, whose root check accepts every node, and whose
      primitive converter keeps text as it is. */
  const Ctx := Context(
    ExampleSchema,
    (n: Node, t: TypeName) => Success(Instance(t, n.attrs, map[])),
    (n: Node, t: TypeName) => Success("Vector"),
    (n: Node, t: TypeName) => None,
    ExampleLeaf,
    (a: Attr, t: TypeName) => Success(Scalar(t, a.value)),
    ExampleText,
    ExampleText,
    (t: TypeName) => Attr("class", t),
    ExampleAssignable)

  /** A context whose collaborators behave as those of Ctx. */
  ghost predicate Behaves(ctx: Context) {
    && ctx.schemaOf("Entry") == EntrySchema
    && ctx.schemaOf("EntryList") == EntryListSchema
    && ctx.schemaOf("ListEntry") == ListEntrySchema
    && ctx.schemaOf("RootListEntry") == RootListEntrySchema
    && (forall n, t :: ctx.instantiate(n, t) == Success(Instance(t, n.attrs, map[])))
    && (forall n, t :: ctx.newCollection(n, t) == Success("Vector"))
    && (forall n, t :: ctx.checkRoot(n, t) == None)
    && (forall n, t :: ctx.readLeaf(n, t) == ExampleLeaf(n, t))
    && (forall a, t :: ctx.readAttribute(a, t) == Success(Scalar(t, a.value)))
    && (forall v :: ctx.leafText(v) == ExampleText(v))
    && (forall v :: ctx.toText(v) == ExampleText(v))
    && (forall t :: ctx.overrideMarker(t) == Attr("class", t))
    && (forall a, b :: ctx.assignableFrom(a, b) == ExampleAssignable(a, b))
  }

  lemma CtxBehaves()
    ensures Behaves(Ctx)
  {
  }

  // ---------------------------------------------------------------------------
  // the documents
  // ---------------------------------------------------------------------------

  function Leaf(name: string, text: string): Child {
    Elem(Node(name, [], [Text(text)]))
  }

  function EntryElement(id: string, text: string): Child {
    Elem(Node("entry", [Attr("id", id)], [Text("\n         "), Leaf("text", text), Text("  \n\r      ")]))
  }

  const ListElement := Elem(Node("list", [Attr("class", "java.util.Vector")], [
    Text("\n      "), EntryElement("12", "some example text"), Text("\n\r      "),
    EntryElement("34", "other example"), Text("\n      "),
    EntryElement("56", "final example"), Text("\n   ")]))

  /** VALID. */
  const Valid := Node("root", [Attr("name", "example")], [
    Text("\n   "), Leaf("text", "some text element"), Text("\n   "), ListElement, Text("\n")])

  /** NO_NAME_ATTRIBUTE. */
  const NoNameAttribute := Node("root", [], [
    Text("\n   "), Leaf("text", "some text element"), Text("\n   "), ListElement, Text("\n")])

  /** NO_TEXT_ELEMENT: it lacks the name attribute as well as the text element. */
  const NoTextElement := Node("root", [], [Text("\n   "), ListElement, Text("\n")])

  /** NO_TEXT_ELEMENT with the name attribute put back. */
  const NamedNoTextElement := Node("root", [Attr("name", "example")], [Text("\n   "), ListElement, Text("\n")])

  /** EXTRA_ELEMENT. */
  const ExtraElement := Node("root", [Attr("name", "example")], [
    Text("\n   "), Leaf("error", "this is an extra element"), Text("\n   "),
    Leaf("text", "some text element"), Text("\n   "), ListElement, Text("\n")])

  /** EXTRA_ATTRIBUTE. */
  const ExtraAttribute := Node("root", [Attr("error", "some extra attribute"), Attr("name", "example")], [
    Text("\n   "), Leaf("text", "some text element"), Text("\n   "), ListElement, Text("\n")])

  // ---------------------------------------------------------------------------
  // reading
  // ---------------------------------------------------------------------------

  const NameLabel := EntryListSchema.attributes[0]
  const ListLabel := EntryListSchema.elements[0]

  function EntryValue(id: string, text: string): Value {
    Obj("Entry", map["id" := Scalar("int", id), "text" := Scalar("String", text)])
  }

  /** The traversal maps of the two classes. */
  lemma ExampleLabelMaps()
    ensures ToLabelMap(EntrySchema.attributes) == map["id" := IdLabel]
    ensures ToLabelMap(EntrySchema.elements) == map["text" := TextLabel]
    ensures ToLabelMap(EntryListSchema.attributes) == map["name" := NameLabel]
    ensures ToLabelMap(EntryListSchema.elements) == map["list" := ListLabel, "text" := TextLabel]
  {
    assert EntryListSchema.elements[..1] == [ListLabel];
  }

  lemma ElementsText(ctx: Context, t: string, rest: seq<Child>, m: LabelMap, fields: map<string, Value>)
    ensures ReadElements(ctx, [Text(t)] + rest, m, fields) == ReadElements(ctx, rest, m, fields)
  {
    assert ([Text(t)] + rest)[1..] == rest;
  }

  lemma EntriesText(ctx: Context, t: string, rest: seq<Child>, entry: TypeName)
    ensures ReadEntries(ctx, [Text(t)] + rest, entry) == ReadEntries(ctx, rest, entry)
  {
    assert ([Text(t)] + rest)[1..] == rest;
  }

  /** A leaf element named by a Primitive label reads as its text. */
  lemma LeafStep(ctx: Context, lab: Label, text: string, rest: seq<Child>, m: LabelMap, fields: map<string, Value>)
    requires Behaves(ctx)
    requires lab.name in m && m[lab.name] == lab && lab.converter.Primitive?
    ensures ReadElements(ctx, [Leaf(lab.name, text)] + rest, m, fields)
            == ReadElements(ctx, rest, m - {lab.name}, fields[lab.field := Scalar(lab.declType, text)])
  {
    var c := Leaf(lab.name, text).node;
    assert ReadValue(ctx, c, lab) == Success(Scalar(lab.declType, text));
    ReadLemmas.ElementStep(ctx, c, rest, m, fields);
  }

  /** The id attribute of an entry. */
  lemma EntryAttributes(ctx: Context, id: string)
    requires Behaves(ctx)
    ensures ReadAttributes(ctx, [Attr("id", id)], map["id" := IdLabel], map[])
            == Success(Progress(map[], map["id" := Scalar("int", id)]))
  {
    var f1 := map["id" := Scalar("int", id)];
    assert ReadAttributes(ctx, [], map[], f1) == Success(Progress(map[], f1));
    assert map["id" := IdLabel] - {"id"} == map[];
  }

  /** The children of an entry: whitespace around one text element. */
  lemma EntryChildren(ctx: Context, id: string, text: string, fields: map<string, Value>)
    requires Behaves(ctx)
    ensures ReadElements(ctx, EntryElement(id, text).node.children, map["text" := TextLabel], fields)
            == Success(Progress(map[], fields["text" := Scalar("String", text)]))
  {
    var tail := [Text("  \n\r      ")];
    assert EntryElement(id, text).node.children == [Text("\n         ")] + ([Leaf("text", text)] + tail);
    ElementsText(ctx, "\n         ", [Leaf("text", text)] + tail, map["text" := TextLabel], fields);
    LeafStep(ctx, TextLabel, text, tail, map["text" := TextLabel], fields);
    assert map["text" := TextLabel] - {"text"} == map[];
    ElementsText(ctx, "  \n\r      ", [], map[], fields["text" := Scalar("String", text)]);
  }

  /** An entry of the list reads as an Entry holding its id and text. */
  lemma EntryReads(ctx: Context, id: string, text: string)
    requires Behaves(ctx)
    ensures ReadRoot(ctx, EntryElement(id, text).node, "Entry") == Success(EntryValue(id, text))
  {
    var n := EntryElement(id, text).node;
    ExampleLabelMaps();
    var f1 := map["id" := Scalar("int", id)];
    EntryAttributes(ctx, id);
    EntryChildren(ctx, id, text, f1);
    RootPhases(ctx, n, "Entry", Instance("Entry", n.attrs, map[]), Success(Progress(map[], f1)),
               Success(Progress(map[], f1["text" := Scalar("String", text)])));
  }

  /** A root read in its phases: the root check, instantiation, attributes
      and their check, elements and their check. */
  lemma RootPhases(ctx: Context, node: Node, declType: TypeName, inst: Instance,
                   a: Result<Progress>, e: Result<Progress>)
    requires ctx.checkRoot(node, declType) == None
    requires ctx.instantiate(node, declType) == Success(inst)
    requires ReadAttributes(ctx, inst.attrs, ToLabelMap(ctx.schemaOf(inst.typeName).attributes), inst.fields) == a
    requires a.Success? ==>
               e == ReadElements(ctx, node.children, ToLabelMap(ctx.schemaOf(inst.typeName).elements), a.value.fields)
    ensures var schema := ctx.schemaOf(inst.typeName);
            ReadRoot(ctx, node, declType)
            == if a.Failure? then Failure(a.error)
               else if MissingRequired(schema.attributes, a.value.remaining).Some? then
                 Failure(FieldRequiredError(MissingRequired(schema.attributes, a.value.remaining).value, inst.typeName))
               else if e.Failure? then Failure(e.error)
               else if MissingRequired(schema.elements, e.value.remaining).Some? then
                 Failure(FieldRequiredError(MissingRequired(schema.elements, e.value.remaining).value, inst.typeName))
               else Success(Obj(inst.typeName, e.value.fields))
  {
  }

  const ExampleList := Coll("Vector", [EntryValue("12", "some example text"), EntryValue("34", "other example"),
                                        EntryValue("56", "final example")])

  /** Whitespace and then an entry: the entry's value leads the rest. */
  lemma EntryThen(ctx: Context, ws: string, id: string, text: string, rest: seq<Child>)
    requires Behaves(ctx)
    ensures var r := ReadEntries(ctx, rest, "Entry");
            ReadEntries(ctx, [Text(ws), EntryElement(id, text)] + rest, "Entry")
            == if r.Success? then Success([EntryValue(id, text)] + r.value) else r
  {
    var e := EntryElement(id, text);
    EntryReads(ctx, id, text);
    ListLemmas.EntryStep(ctx, e.node, rest, "Entry");
    assert [Text(ws), e] + rest == [Text(ws)] + ([e] + rest);
    EntriesText(ctx, ws, [e] + rest, "Entry");
  }

  /** Two entries between whitespace read as their two values, in order. */
  lemma TwoEntriesRead(ctx: Context, w1: string, w2: string, w3: string,
                       id1: string, t1: string, id2: string, t2: string)
    requires Behaves(ctx)
    ensures ReadEntries(ctx, [Text(w1), EntryElement(id1, t1), Text(w2), EntryElement(id2, t2), Text(w3)], "Entry")
            == Success([EntryValue(id1, t1), EntryValue(id2, t2)])
  {
    var k3 := [Text(w3)];
    var k2 := [Text(w2), EntryElement(id2, t2)] + k3;
    EntriesText(ctx, w3, [], "Entry");
    assert [Text(w3)] + [] == k3;
    assert ReadEntries(ctx, k3, "Entry") == Success([]);
    EntryThen(ctx, w2, id2, t2, k3);
    assert [EntryValue(id2, t2)] + [] == [EntryValue(id2, t2)];
    assert ReadEntries(ctx, k2, "Entry") == Success([EntryValue(id2, t2)]);
    EntryThen(ctx, w1, id1, t1, k2);
    assert [EntryValue(id1, t1)] + [EntryValue(id2, t2)] == [EntryValue(id1, t1), EntryValue(id2, t2)];
    assert [Text(w1), EntryElement(id1, t1)] + k2
           == [Text(w1), EntryElement(id1, t1), Text(w2), EntryElement(id2, t2), Text(w3)];
  }

  /** Three entries between whitespace read as their three values, in order. */
  lemma ThreeEntriesRead(ctx: Context, w0: string, w1: string, w2: string, w3: string,
                         id0: string, t0: string, id1: string, t1: string, id2: string, t2: string)
    requires Behaves(ctx)
    ensures ReadEntries(ctx, [Text(w0), EntryElement(id0, t0), Text(w1), EntryElement(id1, t1),
                              Text(w2), EntryElement(id2, t2), Text(w3)], "Entry")
            == Success([EntryValue(id0, t0), EntryValue(id1, t1), EntryValue(id2, t2)])
  {
    var k1 := [Text(w1), EntryElement(id1, t1), Text(w2), EntryElement(id2, t2), Text(w3)];
    TwoEntriesRead(ctx, w1, w2, w3, id1, t1, id2, t2);
    EntryThen(ctx, w0, id0, t0, k1);
    assert [EntryValue(id0, t0)] + [EntryValue(id1, t1), EntryValue(id2, t2)]
           == [EntryValue(id0, t0), EntryValue(id1, t1), EntryValue(id2, t2)];
    assert [Text(w0), EntryElement(id0, t0)] + k1
           == [Text(w0), EntryElement(id0, t0), Text(w1), EntryElement(id1, t1),
               Text(w2), EntryElement(id2, t2), Text(w3)];
  }

  /** The entries of the list of the test documents. */
  lemma ListEntriesRead(ctx: Context)
    requires Behaves(ctx)
    ensures ReadEntries(ctx, ListElement.node.children, "Entry") == Success(ExampleList.items)
  {
    ThreeEntriesRead(ctx, "\n      ", "\n\r      ", "\n      ", "\n   ",
                     "12", "some example text", "34", "other example", "56", "final example");
  }

  /** A list whose entries read fills a Vector with them. */
  lemma ListReads(ctx: Context, list: Node, items: seq<Value>)
    requires Behaves(ctx)
    requires ReadEntries(ctx, list.children, "Entry") == Success(items)
    ensures ReadList(ctx, list, "List", "Entry") == Success(Coll("Vector", items))
  {
  }

  /** Such a list element fills the list field. */
  lemma ListStep(ctx: Context, list: Node, items: seq<Value>, rest: seq<Child>, m: LabelMap,
                 fields: map<string, Value>)
    requires Behaves(ctx)
    requires ReadEntries(ctx, list.children, "Entry") == Success(items)
    requires "list" in m && m["list"] == ListLabel && list.name == "list"
    ensures ReadElements(ctx, [Elem(list)] + rest, m, fields)
            == ReadElements(ctx, rest, m - {"list"}, fields["list" := Coll("Vector", items)])
  {
    ListReads(ctx, list, items);
    assert ReadValue(ctx, list, ListLabel) == Success(Coll("Vector", items));
    ReadLemmas.ElementStep(ctx, list, rest, m, fields);
  }

  const ElementMap := map["list" := ListLabel, "text" := TextLabel]

  /** A root element read as an EntryList, in its phases. */
  lemma EntryListPhases(ctx: Context, doc: Node, a: Result<Progress>, e: Result<Progress>)
    requires Behaves(ctx)
    requires ReadAttributes(ctx, doc.attrs, map["name" := NameLabel], map[]) == a
    requires a.Success? ==> ReadElements(ctx, doc.children, ElementMap, a.value.fields) == e
    ensures ReadRoot(ctx, doc, "EntryList")
            == if a.Failure? then Failure(a.error)
               else if MissingRequired(EntryListSchema.attributes, a.value.remaining).Some? then
                 Failure(FieldRequiredError(MissingRequired(EntryListSchema.attributes, a.value.remaining).value,
                                            "EntryList"))
               else if e.Failure? then Failure(e.error)
               else if MissingRequired(EntryListSchema.elements, e.value.remaining).Some? then
                 Failure(FieldRequiredError(MissingRequired(EntryListSchema.elements, e.value.remaining).value,
                                            "EntryList"))
               else Success(Obj("EntryList", e.value.fields))
  {
    ExampleLabelMaps();
    RootPhases(ctx, doc, "EntryList", Instance("EntryList", doc.attrs, map[]), a, e);
  }

  /** A name attribute alone reads as the name field. */
  lemma NameRead(ctx: Context, name: string)
    requires Behaves(ctx)
    ensures ReadAttributes(ctx, [Attr("name", name)], map["name" := NameLabel], map[])
            == Success(Progress(map[], map["name" := Scalar("String", name)]))
  {
    assert map["name" := NameLabel] - {"name"} == map[];
    assert ReadAttributes(ctx, [], map[], map["name" := Scalar("String", name)])
           == Success(Progress(map[], map["name" := Scalar("String", name)]));
  }

  /** Whitespace, a text element, whitespace, a list and whitespace fill both
      element fields. */
  lemma TextThenListRead(ctx: Context, w0: string, w1: string, w2: string, text: string, list: Node,
                         items: seq<Value>, f0: map<string, Value>)
    requires Behaves(ctx)
    requires ReadEntries(ctx, list.children, "Entry") == Success(items) && list.name == "list"
    ensures ReadElements(ctx, [Text(w0), Leaf("text", text), Text(w1), Elem(list), Text(w2)], ElementMap, f0)
            == Success(Progress(map[], f0["text" := Scalar("String", text)]["list" := Coll("Vector", items)]))
  {
    var f1 := f0["text" := Scalar("String", text)];
    var m1 := map["list" := ListLabel];
    assert ElementMap - {"text"} == m1;
    assert m1 - {"list"} == map[];
    var k3 := [Text(w2)];
    var k2 := [Elem(list)] + k3;
    var k1 := [Text(w1)] + k2;
    var k0 := [Leaf("text", text)] + k1;
    assert [Text(w0), Leaf("text", text), Text(w1), Elem(list), Text(w2)] == [Text(w0)] + k0;
    ElementsText(ctx, w0, k0, ElementMap, f0);
    LeafStep(ctx, TextLabel, text, k1, ElementMap, f0);
    ElementsText(ctx, w1, k2, m1, f1);
    ListStep(ctx, list, items, k3, m1, f1);
    ElementsText(ctx, w2, [], map[], f1["list" := Coll("Vector", items)]);
    assert [Text(w2)] + [] == k3;
  }

  /** Whitespace, a list and whitespace fill the list field and leave the
      text label unmatched. */
  lemma ListOnlyRead(ctx: Context, w0: string, w1: string, list: Node, items: seq<Value>, f0: map<string, Value>)
    requires Behaves(ctx)
    requires ReadEntries(ctx, list.children, "Entry") == Success(items) && list.name == "list"
    ensures ReadElements(ctx, [Text(w0), Elem(list), Text(w1)], ElementMap, f0)
            == Success(Progress(map["text" := TextLabel], f0["list" := Coll("Vector", items)]))
  {
    var left := map["text" := TextLabel];
    assert ElementMap - {"list"} == left;
    var k2 := [Text(w1)];
    var k1 := [Elem(list)] + k2;
    assert [Text(w0), Elem(list), Text(w1)] == [Text(w0)] + k1;
    ElementsText(ctx, w0, k1, ElementMap, f0);
    ListStep(ctx, list, items, k2, ElementMap, f0);
    ElementsText(ctx, w1, [], left, f0["list" := Coll("Vector", items)]);
    assert [Text(w1)] + [] == k2;
  }

  /** testValid: the valid document reads, its list holding all three entries. */
  lemma ValidReads(ctx: Context)
    requires Behaves(ctx)
    ensures ReadRoot(ctx, Valid, "EntryList")
            == Success(Obj("EntryList", map["name" := Scalar("String", "example"),
                                            "text" := Scalar("String", "some text element"),
                                            "list" := ExampleList]))
  {
    var f0 := map["name" := Scalar("String", "example")];
    NameRead(ctx, "example");
    ListEntriesRead(ctx);
    TextThenListRead(ctx, "\n   ", "\n   ", "\n", "some text element", ListElement.node, ExampleList.items, f0);
    EntryListPhases(ctx, Valid, Success(Progress(map[], f0)),
                    Success(Progress(map[], f0["text" := Scalar("String", "some text element")]["list" := ExampleList])));
  }

  /** A root element without attributes, as in NO_NAME_ATTRIBUTE and
      NO_TEXT_ELEMENT, fails for the required name attribute before any
      child is looked at. */
  lemma NoAttributesFails(ctx: Context, doc: Node)
    requires Behaves(ctx)
    requires doc.attrs == []
    ensures ReadRoot(ctx, doc, "EntryList") == Failure(FieldRequiredError("name", "EntryList"))
  {
    var a := Success(Progress(map["name" := NameLabel], map[]));
    assert MissingRequired(EntryListSchema.attributes, map["name" := NameLabel]) == Some("name");
    EntryListPhases(ctx, doc, a, ReadElements(ctx, doc.children, ElementMap, map[]));
  }

  /** testNoAttribute: a FieldRequiredException for the name attribute. */
  lemma NoNameAttributeFails(ctx: Context)
    requires Behaves(ctx)
    ensures ReadRoot(ctx, NoNameAttribute, "EntryList") == Failure(FieldRequiredError("name", "EntryList"))
  {
    NoAttributesFails(ctx, NoNameAttribute);
  }

  /** testNoElement: also a FieldRequiredException, though for the name
      attribute this document lacks too, since attributes are checked first. */
  lemma NoTextElementFails(ctx: Context)
    requires Behaves(ctx)
    ensures ReadRoot(ctx, NoTextElement, "EntryList") == Failure(FieldRequiredError("name", "EntryList"))
  {
    NoAttributesFails(ctx, NoTextElement);
  }

  /** A named root with a list but no text element fails for the text element. */
  lemma NoTextFails(ctx: Context, doc: Node, name: string, w0: string, w1: string, list: Node, items: seq<Value>)
    requires Behaves(ctx)
    requires ReadEntries(ctx, list.children, "Entry") == Success(items) && list.name == "list"
    requires doc.attrs == [Attr("name", name)] && doc.children == [Text(w0), Elem(list), Text(w1)]
    ensures ReadRoot(ctx, doc, "EntryList") == Failure(FieldRequiredError("text", "EntryList"))
  {
    var f0 := map["name" := Scalar("String", name)];
    NameRead(ctx, name);
    ListOnlyRead(ctx, w0, w1, list, items, f0);
    assert MissingRequired(EntryListSchema.elements, map["text" := TextLabel]) == Some("text");
    EntryListPhases(ctx, doc, Success(Progress(map[], f0)),
                    Success(Progress(map["text" := TextLabel], f0["list" := Coll("Vector", items)])));
  }

  /** With its name attribute, NO_TEXT_ELEMENT fails for the text element. */
  lemma NamedNoTextElementFails(ctx: Context)
    requires Behaves(ctx)
    ensures ReadRoot(ctx, NamedNoTextElement, "EntryList") == Failure(FieldRequiredError("text", "EntryList"))
  {
    ListEntriesRead(ctx);
    NoTextFails(ctx, NamedNoTextElement, "example", "\n   ", "\n", ListElement.node, ExampleList.items);
  }

  /** An undeclared first attribute is an AttributeException. */
  lemma UndeclaredAttributeFails(ctx: Context, doc: Node, name: string, value: string)
    requires Behaves(ctx)
    requires |doc.attrs| > 0 && doc.attrs[0] == Attr(name, value) && name != "name"
    ensures ReadRoot(ctx, doc, "EntryList") == Failure(AttributeError(name, DoesNotExist))
  {
    var a := Failure(AttributeError(name, DoesNotExist));
    EntryListPhases(ctx, doc, a, a);
  }

  /** testExtraAttribute: an AttributeException for the undeclared attribute. */
  lemma ExtraAttributeFails(ctx: Context)
    requires Behaves(ctx)
    ensures ReadRoot(ctx, ExtraAttribute, "EntryList") == Failure(AttributeError("error", DoesNotExist))
  {
    UndeclaredAttributeFails(ctx, ExtraAttribute, "error", "some extra attribute");
  }

  /** A named root whose first element child is undeclared is an ElementException. */
  lemma UndeclaredElementFails(ctx: Context, doc: Node, name: string, w0: string, extra: string, text: string,
                               rest: seq<Child>)
    requires Behaves(ctx)
    requires doc.attrs == [Attr("name", name)] && doc.children == [Text(w0), Leaf(extra, text)] + rest
    requires extra != "list" && extra != "text"
    ensures ReadRoot(ctx, doc, "EntryList") == Failure(ElementError(extra, DoesNotExist))
  {
    var f0 := map["name" := Scalar("String", name)];
    NameRead(ctx, name);
    assert doc.children == [Text(w0)] + ([Leaf(extra, text)] + rest);
    ElementsText(ctx, w0, [Leaf(extra, text)] + rest, ElementMap, f0);
    var e := Failure(ElementError(extra, DoesNotExist));
    assert ReadElements(ctx, [Leaf(extra, text)] + rest, ElementMap, f0) == e;
    EntryListPhases(ctx, doc, Success(Progress(map[], f0)), e);
  }

  /** testExtraElement: an ElementException for the undeclared element. */
  lemma ExtraElementFails(ctx: Context)
    requires Behaves(ctx)
    ensures ReadRoot(ctx, ExtraElement, "EntryList") == Failure(ElementError("error", DoesNotExist))
  {
    UndeclaredElementFails(ctx, ExtraElement, "example", "\n   ", "error", "this is an extra element",
                           ExtraElement.children[2..]);
  }

  // ---------------------------------------------------------------------------
  // writing
  // ---------------------------------------------------------------------------

  /** testMissingElement: an Entry with an id but no text is an ElementException. */
  lemma MissingElementFails(ctx: Context)
    requires Behaves(ctx)
    ensures WriteRoot(ctx, Obj("Entry", map["id" := Scalar("int", "1")]))
            == Failure(ElementError("text", NullValue))
  {
  }

  /** testMissingAttribute: an EntryList with text but no name is an
      AttributeException. */
  lemma MissingAttributeFails(ctx: Context)
    requires Behaves(ctx)
    ensures WriteRoot(ctx, Obj("EntryList", map["text" := Scalar("String", "some text")]))
            == Failure(AttributeError("name", NullValue))
  {
  }

  /** A complete Entry writes as an entry element with its id attribute and
      one text element. */
  lemma EntryWrites(ctx: Context)
    requires Behaves(ctx)
    ensures WriteRoot(ctx, Obj("Entry", map["id" := Scalar("int", "1"), "text" := Scalar("String", "hi")]))
            == Success(Node("entry", [Attr("id", "1")], [Elem(Node("text", [], [Text("hi")]))]))
  {
    var source := Obj("Entry", map["id" := Scalar("int", "1"), "text" := Scalar("String", "hi")]);
    var withId := Node("entry", [Attr("id", "1")], []);
    assert WriteAttributes(ctx, source, [IdLabel], NewElement("entry")) == Success(withId);
    var shell := NewElement("text");
    assert Shell(ctx, Scalar("String", "hi"), TextLabel) == shell;
    assert ctx.leafText(Scalar("String", "hi")) == "hi";
    assert shell.children + [Text("hi")] == [Text("hi")];
    assert WriteValue(ctx, Scalar("String", "hi"), shell, TextLabel) == Success(Node("text", [], [Text("hi")]));
    assert WriteElement(ctx, Scalar("String", "hi"), withId, TextLabel)
           == Success(withId.(children := [Elem(Node("text", [], [Text("hi")]))]));
  }

  /** The entry check as written: a list declared with entry type ListEntry
      rejects a RootListEntry item, its subclass. */
  lemma SubclassItemRejected(ctx: Context)
    requires Behaves(ctx)
    ensures WriteList(ctx, Coll("ArrayList", [Obj("RootListEntry", map["value" := Scalar("String", "v"),
                                                                      "text" := Scalar("String", "t")])]),
                      NewElement("list"), "ListEntry")
            == Failure(EntryTypeMismatch)
  {
  }

  /** An item of the entry type itself passes the entry check; ListEntry
      declares no root, so it then fails as a root write. */
  lemma EntryTypeItemPasses(ctx: Context)
    requires Behaves(ctx)
    ensures WriteList(ctx, Coll("ArrayList", [Obj("ListEntry", map["text" := Scalar("String", "t")])]),
                      NewElement("list"), "ListEntry")
            == Failure(RootError("ListEntry"))
  {
  }
}

=== FILE: schema.dfy ===
/**
 * The resolved field metadata of a class: its optional root name and the
 * labels of its attribute fields and of its element fields. A label names the
 * node, the field it fills, whether it is required, the field's declared type
 * and the converter that handles it. Element lists are element labels whose
 * converter is a CompositeList.
 */
module Schema {
  import opened Errors

  datatype ConverterKind =
    | Primitive
    | Composite
    | CompositeList(entry: TypeName)

  datatype Label = Label(
    name: string,
    field: string,
    required: bool,
    declType: TypeName,
    converter: ConverterKind)

  /** The labels of a class, in the order its label maps yield them, and the
      element name declared by its Root annotation, if any. */
  datatype Schema = Schema(root: Option<string>, attributes: seq<Label>, elements: seq<Label>)

  /** A consumed-once traversal map from node name to not-yet-matched label. */
  type LabelMap = map<string, Label>

  function LabelNames(labels: seq<Label>): set<string> {
    set l | l in labels :: l.name
  }

  /** The fields a partition's labels are bound to. */
  function LabelFields(labels: seq<Label>): set<string> {
    set l | l in labels :: l.field
  }

  /** No two labels of a partition share a name (the resolver's invariant). */
  predicate UniqueNames(labels: seq<Label>) {
    forall i, j :: 0 <= i < j < |labels| ==> labels[i].name != labels[j].name
  }

  /** The traversal map of a partition: every label under its name; should two
      labels share a name, the later one is kept, as a map put would. */
  function ToLabelMap(labels: seq<Label>): (m: LabelMap)
    ensures m.Keys == LabelNames(labels)
    ensures forall k :: k in m ==> m[k] in labels && m[k].name == k
    ensures UniqueNames(labels) ==> forall i :: 0 <= i < |labels| ==> m[labels[i].name] == labels[i]
  {
    if |labels| == 0 then map[]
    else
      var init := labels[..|labels| - 1];
      var last := labels[|labels| - 1];
      assert labels == init + [last];
      assert UniqueNames(labels) ==> UniqueNames(init);
      ToLabelMap(init)[last.name := last]
  }
}

=== FILE: write_lemmas.dfy ===
/**
 * Properties of Composite.write: required fields, what each attribute and
 * element label contributes, the override marker, and the order of the two
 * phases.
 */
module WriteLemmas {
  import opened Errors
  import opened Dom
  import opened Schema
  import opened Objects
  import opened Collaborators
  import opened Load

  /** A label whose field the write refuses: required but null. */
  predicate NullRequired(source: Value, lab: Label) {
    lab.required && FieldOf(source, lab.field).Null?
  }

  /** Position k holds the first label the write refuses. */
  predicate FirstNullRequired(source: Value, labels: seq<Label>, k: int) {
    && 0 <= k < |labels|
    && NullRequired(source, labels[k])
    && forall i :: 0 <= i < k ==> !NullRequired(source, labels[i])
  }

  // ---------------------------------------------------------------------------
  // attribute phase
  // ---------------------------------------------------------------------------

  /** The attribute phase fails naming the first required label whose field is
      null, whatever comes after it. */
  lemma {:induction false} FirstNullRequiredAttribute(ctx: Context, source: Value, labels: seq<Label>, node: Node, k: int)
    requires FirstNullRequired(source, labels, k)
    ensures WriteAttributes(ctx, source, labels, node) == Failure(AttributeError(labels[k].name, NullValue))
    decreases k
  {
    if k > 0 {
      var lab := labels[0];
      var next := WriteAttribute(ctx, FieldOf(source, lab.field), node, lab);
      assert FirstNullRequired(source, labels[1..], k - 1) by {
        forall i | 0 <= i < k - 1
          ensures !NullRequired(source, labels[1..][i])
        {
          assert labels[1..][i] == labels[i + 1];
        }
      }
      FirstNullRequiredAttribute(ctx, source, labels[1..], next, k - 1);
    }
  }

  /** What the attribute phase leaves on the node, for labels with distinct
      names: the text of each non-null field under its label's name, and the
      node's earlier value for a null one; AttributeLookupKept covers every
      other name. */
  lemma {:induction false} AttributesWritten(ctx: Context, source: Value, labels: seq<Label>, node: Node)
    requires WriteAttributes(ctx, source, labels, node).Success?
    requires UniqueNames(labels)
    ensures AttributesSet(ctx, source, labels, node.attrs, WriteAttributes(ctx, source, labels, node).value.attrs)
    decreases |labels|
  {
    if |labels| > 0 {
      var lab := labels[0];
      var rest := labels[1..];
      var v := FieldOf(source, lab.field);
      var next := WriteAttribute(ctx, v, node, lab);
      var out := WriteAttributes(ctx, source, rest, next).value;
      assert forall i :: 0 <= i < |rest| ==> rest[i] == labels[i + 1];
      assert UniqueNames(rest);
      AttributesWritten(ctx, source, rest, next);
      assert lab.name !in LabelNames(rest) by {
        forall l | l in rest
          ensures l.name != lab.name
        {
          var i :| 0 <= i < |rest| && rest[i] == l;
          assert labels[i + 1] == l;
        }
      }
      AttributeLookupKept(ctx, source, rest, next, lab.name);
      AttributesSetCons(ctx, source, lab, rest, node.attrs, next.attrs, out.attrs);
    }
  }

  lemma AttributesSetCons(ctx: Context, source: Value, lab: Label, rest: seq<Label>,
                          before: seq<Attr>, mid: seq<Attr>, after: seq<Attr>)
    requires forall k :: k != lab.name ==> Lookup(mid, k) == Lookup(before, k)
    requires Lookup(after, lab.name) == Lookup(mid, lab.name)
    requires FieldOf(source, lab.field).Null? ==> Lookup(mid, lab.name) == Lookup(before, lab.name)
    requires !FieldOf(source, lab.field).Null? ==>
               Lookup(mid, lab.name) == Some(AttributeText(ctx, FieldOf(source, lab.field)))
    requires forall i :: 0 <= i < |rest| ==> rest[i].name != lab.name
    requires AttributesSet(ctx, source, rest, mid, after)
    ensures AttributesSet(ctx, source, [lab] + rest, before, after)
  {
    forall i | 1 <= i < |rest| + 1
      ensures var l := ([lab] + rest)[i];
              Lookup(after, l.name)
                == if FieldOf(source, l.field).Null? then Lookup(before, l.name)
                   else Some(AttributeText(ctx, FieldOf(source, l.field)))
    {
      assert ([lab] + rest)[i] == rest[i - 1];
    }
  }

  // ---------------------------------------------------------------------------
  // element phase
  // ---------------------------------------------------------------------------

  /** The labels whose fields hold a value, in order: exactly the ones that
      contribute an element. */
  function Present(source: Value, labels: seq<Label>): (r: seq<Label>)
    ensures |r| <= |labels|
    ensures forall l :: l in r ==> l in labels && !FieldOf(source, l.field).Null?
  {
    if |labels| == 0 then []
    else if FieldOf(source, labels[0].field).Null? then Present(source, labels[1..])
    else [labels[0]] + Present(source, labels[1..])
  }

  /** The element a non-null field is written to, independent of the node it
      is appended to. */
  function Written(ctx: Context, source: Value, lab: Label): Result<Node>
    requires !FieldOf(source, lab.field).Null?
  {
    var v := FieldOf(source, lab.field);
    WriteValue(ctx, v, Shell(ctx, v, lab), lab)
  }

  /** WriteElement appends exactly the element Written yields, or fails with
      its error. */
  lemma ElementAppended(ctx: Context, source: Value, lab: Label, node: Node)
    requires !FieldOf(source, lab.field).Null?
    ensures var r := WriteElement(ctx, FieldOf(source, lab.field), node, lab);
            && r.Success? == Written(ctx, source, lab).Success?
            && (r.Success? ==> r.value == node.(children := node.children + [Elem(Written(ctx, source, lab).value)]))
            && (r.Failure? ==> r.error == Written(ctx, source, lab).error)
  {
  }

  /** The element phase fails naming the first required label whose field is
      null, provided the elements before it could be written. */
  lemma {:induction false} FirstNullRequiredElement(ctx: Context, source: Value, labels: seq<Label>, node: Node, k: int)
    requires FirstNullRequired(source, labels, k)
    requires forall i :: 0 <= i < k && !FieldOf(source, labels[i].field).Null? ==>
                           Written(ctx, source, labels[i]).Success?
    ensures WriteElements(ctx, source, labels, node) == Failure(ElementError(labels[k].name, NullValue))
    decreases k
  {
    if k > 0 {
      var lab := labels[0];
      var v := FieldOf(source, lab.field);
      var next := if v.Null? then node else node.(children := node.children + [Elem(Written(ctx, source, lab).value)]);
      if !v.Null? {
        ElementAppended(ctx, source, lab, node);
      }
      assert forall i :: 0 <= i < |labels| - 1 ==> labels[1..][i] == labels[i + 1];
      assert FirstNullRequired(source, labels[1..], k - 1);
      FirstNullRequiredElement(ctx, source, labels[1..], next, k - 1);
    }
  }

  /** `after` is `before` followed by the element Written yields for each
      label of `present`, in order. */
  predicate Appended(ctx: Context, source: Value, present: seq<Label>, before: seq<Child>, after: seq<Child>) {
    && |after| == |before| + |present|
    && after[..|before|] == before
    && forall j :: 0 <= j < |present| ==>
         && !FieldOf(source, present[j].field).Null?
         && Written(ctx, source, present[j]).Success?
         && after[|before| + j] == Elem(Written(ctx, source, present[j]).value)
  }

  lemma AppendedCons(ctx: Context, source: Value, lab: Label, present: seq<Label>,
                     before: seq<Child>, after: seq<Child>)
    requires !FieldOf(source, lab.field).Null? && Written(ctx, source, lab).Success?
    requires Appended(ctx, source, present, before + [Elem(Written(ctx, source, lab).value)], after)
    ensures Appended(ctx, source, [lab] + present, before, after)
  {
    var mid := before + [Elem(Written(ctx, source, lab).value)];
    assert after[..|mid|] == mid;
    assert after[..|before|] == mid[..|before|];
    forall j | 1 <= j < |present| + 1
      ensures !FieldOf(source, ([lab] + present)[j].field).Null?
      ensures Written(ctx, source, ([lab] + present)[j]).Success?
      ensures after[|before| + j] == Elem(Written(ctx, source, ([lab] + present)[j]).value)
    {
      assert ([lab] + present)[j] == present[j - 1];
      assert |before| + j == |mid| + (j - 1);
    }
  }

  /** What the element phase appends: one element per label whose field holds
      a value, in label order, each exactly as Written yields it; null
      optional fields contribute nothing. */
  lemma {:induction false} ElementsWritten(ctx: Context, source: Value, labels: seq<Label>, node: Node)
    requires WriteElements(ctx, source, labels, node).Success?
    ensures Appended(ctx, source, Present(source, labels), node.children,
                     WriteElements(ctx, source, labels, node).value.children)
    decreases |labels|
  {
    if |labels| == 0 {
      assert node.children[..|node.children|] == node.children;
    } else {
      var lab := labels[0];
      var rest := labels[1..];
      var v := FieldOf(source, lab.field);
      if v.Null? {
        ElementsWritten(ctx, source, rest, node);
      } else {
        ElementAppended(ctx, source, lab, node);
        var next := node.(children := node.children + [Elem(Written(ctx, source, lab).value)]);
        ElementsWritten(ctx, source, rest, next);
        assert Present(source, labels) == [lab] + Present(source, rest);
        AppendedCons(ctx, source, lab, Present(source, rest), node.children,
                     WriteElements(ctx, source, rest, next).value.children);
      }
    }
  }

  // ---------------------------------------------------------------------------
  // the override marker
  // ---------------------------------------------------------------------------

  /** The override marker of a written element: when the value's class is the
      declared type there is none (a leaf or list element carries no attribute
      at all); otherwise it stays on the element unless the value's own class
      declares an attribute of the same name. */
  lemma OverrideMarker(ctx: Context, source: Value, lab: Label)
    requires !FieldOf(source, lab.field).Null?
    requires Written(ctx, source, lab).Success?
    ensures var v := FieldOf(source, lab.field);
            var e := Written(ctx, source, lab).value;
            var marker := ctx.overrideMarker(RuntimeType(v));
            && e.name == lab.name
            && (RuntimeType(v) == lab.declType && !lab.converter.Composite? ==> e.attrs == [])
            && (RuntimeType(v) != lab.declType && !lab.converter.Composite? ==> e.attrs == [marker])
            && (RuntimeType(v) != lab.declType && lab.converter.Composite?
                && marker.name !in LabelNames(ctx.schemaOf(RuntimeType(v)).attributes)
                ==> Lookup(e.attrs, marker.name) == Some(marker.value))
  {
    var v := FieldOf(source, lab.field);
    var shell := Shell(ctx, v, lab);
    var marker := ctx.overrideMarker(RuntimeType(v));
    var schema := ctx.schemaOf(RuntimeType(v));
    if lab.converter.Composite? && RuntimeType(v) != lab.declType && marker.name !in LabelNames(schema.attributes) {
      assert Written(ctx, source, lab) == WriteComposite(ctx, v, shell);
      var withAttrs := WriteAttributes(ctx, v, schema.attributes, shell);
      assert withAttrs.Success?;
      AttributeLookupKept(ctx, v, schema.attributes, shell, marker.name);
      assert Lookup(shell.attrs, marker.name) == Some(marker.value);
    }
  }

  /** The attribute phase leaves a name no label carries as it was; unlike
      AttributesWritten this needs no distinct label names. */
  lemma {:induction false} AttributeLookupKept(ctx: Context, source: Value, labels: seq<Label>, node: Node, k: string)
    requires WriteAttributes(ctx, source, labels, node).Success?
    requires k !in LabelNames(labels)
    ensures Lookup(WriteAttributes(ctx, source, labels, node).value.attrs, k) == Lookup(node.attrs, k)
    decreases |labels|
  {
    if |labels| > 0 {
      var lab := labels[0];
      assert labels == [lab] + labels[1..];
      assert lab in labels;
      AttributeLookupKept(ctx, source, labels[1..], WriteAttribute(ctx, FieldOf(source, lab.field), node, lab), k);
    }
  }

  // ---------------------------------------------------------------------------
  // the two phases
  // ---------------------------------------------------------------------------

  /** Composite.write checks the attributes first: the first required null
      attribute is the error, whatever the element fields hold. */
  lemma AttributesBeforeElements(ctx: Context, source: Value, node: Node, k: int)
    requires !source.Null?
    requires FirstNullRequired(source, ctx.schemaOf(RuntimeType(source)).attributes, k)
    ensures WriteComposite(ctx, source, node)
            == Failure(AttributeError(ctx.schemaOf(RuntimeType(source)).attributes[k].name, NullValue))
  {
    FirstNullRequiredAttribute(ctx, source, ctx.schemaOf(RuntimeType(source)).attributes, node, k);
  }

  /** Each label's attribute as AttributesWritten describes it: the text of a
      non-null field, the earlier value for a null one. */
  predicate AttributesSet(ctx: Context, source: Value, labels: seq<Label>, before: seq<Attr>, after: seq<Attr>) {
    forall i :: 0 <= i < |labels| ==>
      Lookup(after, labels[i].name)
        == if FieldOf(source, labels[i].field).Null? then Lookup(before, labels[i].name)
           else Some(AttributeText(ctx, FieldOf(source, labels[i].field)))
  }

  /** A successful Composite.write keeps the node's name and existing
      children, sets the attributes AttributesWritten describes and appends
      the elements ElementsWritten describes. */
  lemma CompositeWritten(ctx: Context, source: Value, node: Node)
    requires !source.Null?
    requires WriteComposite(ctx, source, node).Success?
    requires UniqueNames(ctx.schemaOf(RuntimeType(source)).attributes)
    ensures var schema := ctx.schemaOf(RuntimeType(source));
            var out := WriteComposite(ctx, source, node).value;
            && out.name == node.name
            && AttributesSet(ctx, source, schema.attributes, node.attrs, out.attrs)
            && Appended(ctx, source, Present(source, schema.elements), node.children, out.children)
  {
    var schema := ctx.schemaOf(RuntimeType(source));
    var withAttrs := WriteAttributes(ctx, source, schema.attributes, node).value;
    AttributesWritten(ctx, source, schema.attributes, node);
    ElementsWritten(ctx, source, schema.elements, withAttrs);
  }
}
